=== FILE: README.md ===
# Arch post-install script: a verified model of its installer core

The installer (`install.py`) is a terminal script. It brings a fresh Arch Linux system up
to a desktop-ready state. It keeps a small run state (`InstallerConfig`): the step
counter, the errors recorded so far and the packages it installed. It walks package lists
through three install loops: pacman, Flatpak and the AUR helper `yay`. Inside those
loops a failed install is recorded as a text message and the loop goes on with the next
package. The "already installed?" queries and the package removals are run without
checking their status, so their failures record nothing. A checked command that fails
outside any `try` records its message and aborts the whole run. At the end it removes
its temporary `configs`/`scripts` directories, but only when no error was recorded.

This project models that core in Dafny:

- `text.dfy` (module `Text`): the string operations the script relies on, with Python's
  meaning:
  - `sub in s`;
  - `" ".join`;
  - `str(n)`;
  - `strip()`;
  - ASCII `lower()`.
- `backends.dfy` (module `Backends`): the meaning of one run of a per-package install
  loop (query, skip when present, install, record), as a function `LoopEffect`, for each
  of the three backends.
- `progress.dfy` (module `Progress`): the step header and the 40-cell progress bar.
- `installer.dfy` (module `Installer`): the run state as a class, `InstallerConfig`.
  `ArchInstaller` is a class whose methods change that state:
  - `step`;
  - `run_command`;
  - the three install loops;
  - kernel headers, microcode and GPU drivers;
  - the reboot prompt;
  - `setup_directories`;
  - `cleanup_and_optimize` with its error gate.

  Each method is proved against the functions of the other modules.
- `setup.dfy` (module `Setup`): the files `setup_directories` writes, as a class
  `FileTree` with a write-if-absent loop.
- `rules.dfy` (module `Rules`): the pure decision rules:
  - desktop detection;
  - CPU microcode;
  - GPU vendor;
  - the NVIDIA menu;
  - the reboot answer;
  - the multilib check.
- `programs.dfy` (module `Programs`): which lists `install_user_programs` installs and
  removes for each install mode and desktop.

Every subprocess result is an input to the model rather than something it runs:
- an exit code per query and per install command;
- the `flatpak list --app` text per package;
- the `lsblk` and `lspci` output;
- the text of `/proc/cpuinfo` and `/etc/pacman.conf` (absent when unreadable);
- `XDG_CURRENT_DESKTOP`;
- the answers typed at the prompts.

A command run with its status checked that exits non-zero makes `RunCommand` record
`Failed to execute: <command>` and return `Raised`. `Raised` stands for the re-raised
`CalledProcessError`.

## Model

| member | source | states |
|---|---|---|
| Installer.InstallerConfig.constructor | install.py:334-352 | a new run state has empty error, installed and removed lists, is at step 1 and announces 20 steps |
| Installer.ArchInstaller.constructor | install.py:354-366 | the installer starts in DEFAULT mode with `configs` and `scripts` beside the script, a valid run state, and the 16 helper utilities |
| Installer.ArchInstaller.Step | install.py:428-432 | the header and bar show the step index from before the call; the counter goes up by exactly one and no other field changes |
| Progress.ProgressLine | install.py:420-426 | while at most `total` steps are done, the printed line opens with `[`, closes the 40 cells with `]`, and cell k is `#` exactly when k is within the filled count |
| Progress.StepHeader | install.py:430 | the header starts with a newline and `[`, and ends with `] ` followed by the step's description |
| Progress.BarFitsWidth | install.py:420-425 | while at most `total` steps are done, the bar has between 0 and 40 `#` cells, `#` plus blank cells make exactly 40, and the bar is full exactly when every step is done |
| Progress.FilledRange | install.py:420-423 | the truncated quotient 40·k/total lies in 0..40 and equals 40 only for k = total |
| Progress.FilledMonotone | install.py:422-423 | the bar never loses a `#` cell as the step counter grows |
| Progress.BarCellsLayout | install.py:424-425 | inside the brackets, cell k is `#` if and only if k is below the filled count: all `#` cells come before all blanks |
| Progress.HeaderIndexReadsBack | install.py:430 | the header is `\n[N] description`, and the digits printed for N read back as N |
| Installer.ArchInstaller.RunCommand | install.py:434-448 | a checked command that exits non-zero is re-raised and leaves exactly one `Failed to execute: <command words joined by spaces>` error; any other result is returned and records nothing; no other field changes |
| Installer.ArchInstaller.PackageStep | install.py:608-627 | one iteration of an install loop: the query always runs; a present package runs nothing else; otherwise the install runs, and success records the package for pacman while failure records the two error strings |
| Installer.ArchInstaller.QueriedPackageStep | install.py:608-627 | one pacman or AUR iteration: the unchecked query runs first and the package counts as present exactly when it exits 0; the rest is the package step |
| Installer.ArchInstaller.InstallPackages | install.py:606-627 | the commands run and the growth of the installed and error lists are exactly the pacman loop's effect over the package list; step, mode and paths are unchanged |
| Installer.ArchInstaller.InstallFlatpaks | install.py:751-763 | the Flatpak loop's effect, with a package skipped exactly when its id occurs in the listing read just before it; the installed list is never changed |
| Installer.ArchInstaller.InstallAurPackages | install.py:765-777 | the AUR loop's effect, with the pacman query and `yay`; the installed list is never changed |
| Backends.PacmanFailureText | install.py:619-627 | a failed pacman install leaves `Failed to execute: sudo pacman -S --noconfirm --needed <pkg>` and then `Failed to install <pkg>` |
| Backends.FlatpakFailureText | install.py:757-763 | a failed Flatpak install leaves `Failed to execute: flatpak install -y --noninteractive flathub <pkg>` and then `Failed to install Flatpak <pkg>` |
| Backends.AurFailureText | install.py:771-777 | a failed AUR install leaves `Failed to execute: yay -S --noconfirm --needed <pkg>` and then `Failed to install AUR <pkg>` |
| Backends.LoopEffectAppend | install.py:606-627 | running a loop over two lists one after the other is the same as running it over their concatenation: the loop never aborts and earlier packages never affect later ones |
| Backends.PackageEffectShape | install.py:608-627 | one iteration always starts with the query and stops there exactly when the package is present; it records errors exactly when the install fails, and records the package as installed exactly for a successful pacman install |
| Backends.AllPresentIsNoop | install.py:608-614 | when every query reports the package present, the loop installs nothing, records nothing and runs only the queries |
| Backends.InstalledAreSucceeded | install.py:617-623 | the packages recorded as installed are exactly the missing packages whose install succeeded, in request order, for pacman; Flatpak and AUR record none |
| Backends.ErrorsAreFailureReports | install.py:624-627 | the errors recorded are exactly the two strings for each failed package, in request order |
| Backends.CommandCounts | install.py:608-621 | one query runs per package plus one install per missing package, and every missing package either succeeds or fails |
| Backends.SucceededIsSubsequence | install.py:606-627 | the installed packages are an in-order subsequence of the missing ones, which are an in-order subsequence of the requested list |
| Backends.FailureIsReported | install.py:624-627 | a missing package whose install fails has both of its error strings in the loop's error list |
| Installer.Headers | install.py:505-506 | each detected kernel gives exactly one `<kernel>-headers` package, in the same order |
| Installer.ArchInstaller.DetectKernelTypes | install.py:496-499 | the kernels kept are those among linux, linux-lts, linux-zen and linux-hardened whose `pacman -Q` exits 0, in that order; nothing is recorded |
| Installer.ArchInstaller.InstallHeaders | install.py:505-506 | one install call per kernel has the same effect as the pacman loop over the whole header list |
| Installer.ArchInstaller.InstallOneHeader | install.py:505-506 | installing one `<kernel>-headers` package has exactly that package's effect in the pacman loop |
| Installer.ArchInstaller.InstallKernelHeadersForAll | install.py:493-506 | one step, then the pacman loop's effect over the headers of the detected kernels, which is none when no kernel is found |
| Installer.ArchInstaller.InstallCpuMicrocode | install.py:478-491 | one step, then the pacman loop's effect over the chosen microcode package, which is none for an unknown or unreadable CPU |
| Rules.Microcode | install.py:481-491 | at most one package is chosen: `intel-ucode` exactly when the readable description mentions Intel, `amd-ucode` exactly when it mentions AMD but not Intel, and none exactly when it is unreadable or mentions neither |
| Rules.MicrocodeForIntel | install.py:484-485 | a CPU description containing `GenuineIntel` selects `intel-ucode`, whatever else it says |
| Rules.MicrocodeForAmd | install.py:484-487 | an `AuthenticAMD` description that never mentions Intel selects `amd-ucode` |
| Rules.MicrocodeAtMostOne | install.py:481-491 | at most one microcode package is chosen, and none when the description cannot be read |
| Rules.DetectGpu | install.py:867-874 | NVIDIA is chosen exactly when the listing mentions it; AMD only when AMD is listed; Intel only when Intel is listed and AMD is not; no driver only when neither AMD nor Intel is listed |
| Rules.GpuPackages | install.py:867-874 | packages are installed directly exactly for AMD and Intel graphics, Mesa in both cases; `xf86-video-amdgpu` exactly for AMD and `xf86-video-intel` exactly for Intel |
| Rules.AmdBeforeIntel | install.py:867-872 | a listing that mentions AMD and not NVIDIA gets the AMD drivers, whether or not Intel is also listed |
| Rules.UnsupportedIffNoVendor | install.py:867-874 | no driver is chosen exactly when none of NVIDIA, AMD and Intel occurs anywhere in the listing |
| Rules.HybridGpuIsNvidia | install.py:867-874 | any `lspci` output mentioning NVIDIA goes to the NVIDIA menu and installs no AMD or Intel driver directly |
| Rules.MesaForAmdAndIntel | install.py:869-872 | Mesa is installed directly exactly for AMD and Intel graphics |
| Installer.GpuPacmanCases | install.py:860-874 | a failed `lspci` installs no driver; on NVIDIA, pacman installs nothing exactly when the menu choice is a skip or a `yay` build; AMD and Intel always get Mesa |
| Installer.ArchInstaller.DetectAndInstallGpuDrivers | install.py:856-874 | one step; a failed `lspci` records its error and installs nothing; otherwise the vendor's packages or the menu's choice go through the pacman loop, and a `yay` command runs exactly for NVIDIA with a legacy choice |
| Installer.ArchInstaller.HandleNvidia | install.py:876-897 | the menu's pacman set goes through the pacman loop; a legacy choice runs exactly one checked `yay` command, whose failure leaves its `Failed to execute` error; a skip changes nothing |
| Rules.NvidiaChoice | install.py:886-897 | the stripped answer 1 and only 1 installs `nvidia-dkms`; 2 and 3, and only they, run a seven-word `yay -S --noconfirm --needed` build, the 390xx series exactly for 2; 5 and only 5 skips; every other answer installs Nouveau |
| Rules.NvidiaChoiceIgnoresPadding | install.py:886 | whitespace added around any menu answer, of any length and content, never changes the driver chosen |
| Rules.NvidiaDefaultIsNouveau | install.py:888-897 | every answer other than 1, 2, 3 and 5 installs Nouveau, and the driver is skipped exactly for 5 |
| Rules.DetectDesktop | install.py:722-731 | the detected desktop's name occurs in the variable, and no name of higher priority (KDE, then GNOME, then COSMIC) does; GENERIC only when none occurs |
| Rules.GenericIffNoName | install.py:722-731 | the desktop is GENERIC exactly when none of KDE, GNOME and COSMIC occurs anywhere in the variable |
| Rules.DetectNamed | install.py:725-730 | a desktop's name anywhere in the variable is recognised unless a name of higher priority also occurs |
| Rules.KdeWins | install.py:725-726 | any variable containing KDE, alone or combined with another desktop, is KDE |
| Rules.DetectRoundTrip | install.py:722-731 | the desktop detected from each returned name is that desktop again |
| Rules.ClassifyReboot | install.py:995-1004 | a blank answer reboots; an answer reboots only if, with surrounding whitespace removed, it lower-cases to empty, `y` or `yes`, and declines only if it lower-cases to `n` or `no` |
| Rules.FirstDecisive | install.py:994-1004 | the prompt stops at the first answer that reboots or declines: every answer before it asks again |
| Rules.BlankAnswerReboots | install.py:995-996 | an empty or all-whitespace answer takes the default and reboots |
| Rules.RebootAnswersIgnoreCaseAndPadding | install.py:995-1000 | every answer that lower-cases to `y` or `yes` reboots, and every one that lower-cases to `n` or `no` declines, whatever whitespace surrounds it |
| Installer.ArchInstaller.PromptReboot | install.py:989-1004 | reads answers up to and including the first decisive one; `sudo reboot` runs, status checked, exactly when that answer reboots, and its failure is recorded; nothing else changes |
| Rules.MultilibEnabled | install.py:651-659 | multilib counts as enabled only for a readable configuration containing `[multilib]`, and never when `#[multilib]` occurs in it |
| Rules.MultilibEnabledMeansUncommented | install.py:651-656 | when multilib counts as enabled, the `[multilib]` header occurs and no occurrence of it is preceded by `#` |
| Rules.UncommentedMeansMultilibEnabled | install.py:651-656 | conversely, when the `[multilib]` header occurs and no occurrence of it is preceded by `#`, multilib counts as enabled |
| Rules.CommentedHeaderDisables | install.py:655 | a commented-out header anywhere makes multilib count as disabled, even beside an enabled one |
| Setup.FileTree.MakeDir | install.py:373-376 | creating a directory that may already exist leaves it present and touches no file |
| Setup.FileTree.WriteMissing | install.py:379-391 | the files become the old files plus each entry written only when its path was absent; the paths returned are those newly written; with `makeExecutable`, exactly those become executable |
| Setup.ExistingFilesKept | install.py:381 | a file that already existed is never overwritten |
| Setup.PathsAfterWriting | install.py:379-391 | afterwards exactly the old files and the entries' paths exist |
| Setup.MissingFilesWritten | install.py:381-383 | with distinct file names, a missing file ends up holding its entry's content |
| Setup.AlreadyPresent | install.py:381 | when every path already exists, the loop writes nothing and changes nothing |
| Setup.SecondRunWritesNothing | install.py:379-391 | repeating the loop on its own result writes nothing and leaves the files as they are |
| Setup.SetupTwiceWritesNothing | install.py:370-391 | running the whole setup a second time writes no config and no script and changes no file |
| Installer.ArchInstaller.SetupDirectories | install.py:370-391 | both directories exist afterwards; configs are written only where absent, then scripts likewise; only the scripts written become executable; the run state is untouched |
| Installer.ArchInstaller.ProbeSsd | install.py:959-965 | the disk counts as an SSD exactly when `lsblk` succeeds and prints a `0`; a failed `lsblk` records its error and answers no |
| Installer.CleanupGate | install.py:936-952 | when the directories are removed, fstrim (on an SSD) and both `rm -rf` have succeeded, and only `sync` can still fail afterwards |
| Installer.GateNeedsCleanRun | install.py:947-952 | the temporary directories are removed if and only if the cleanup reaches the gate and no error was recorded before it or by the SSD probe |
| Installer.FailedInstallKeepsTempDirs | install.py:947-952 | a single failed install anywhere earlier in the run keeps the temporary directories |
| Installer.ArchInstaller.RunCleanCommands | install.py:936-944 | the step reaches the gate exactly when fstrim (only on an SSD) and both `rm -rf` succeed; otherwise the first failure's error is the only one recorded |
| Installer.ArchInstaller.CleanupAndOptimize | install.py:932-956 | one step; the directories are removed exactly when the gate opens; the step completes exactly when fstrim (on an SSD), both `rm -rf` and `sync` succeed; the errors grow by the probe's error and the first failing command's error |
| Programs.Select | install.py:784-831 | the pacman list starts with the mode's base and essential lists and is exactly those in MINIMAL mode or on an unrecognised desktop; the removals follow the desktop and the Flatpak list the mode and desktop |
| Programs.FlatpakList | install.py:816-831 | DEFAULT mode on an unrecognised desktop installs no Flatpak application, while MINIMAL mode installs its generic list |
| Programs.PacmanListStartsWithBase | install.py:784-795 | the pacman list starts with the mode's base and essential lists, in that order, and the AUR list is the mode's own |
| Programs.DesktopExtrasOnlyInDefault | install.py:784-801 | MINIMAL mode gives every desktop the same pacman and AUR lists; DEFAULT mode appends the desktop's extras, none for GENERIC |
| Programs.RemovalsIgnoreMode | install.py:802-811 | the packages removed depend on the desktop only, and an unrecognised desktop removes none |
| Programs.FlatpakEmptyOnlyForDefaultGeneric | install.py:816-831 | with the script's own lists, every mode and desktop installs some Flatpak application except DEFAULT mode on an unrecognised desktop |
| Programs.MinimalIsSmaller | install.py:305-332 | with the script's own lists, MINIMAL mode installs fewer pacman and AUR packages than DEFAULT on every desktop |
| Text.ContainsIffOccurs | install.py:725-730 | Python's `sub in s` holds exactly when some position of `s` starts a copy of `sub` |
| Text.StripShape | install.py:995 | `strip()` returns one contiguous run of its input with only whitespace before and after it, and the run neither starts nor ends with whitespace |
| Text.StripIgnoresPadding | install.py:886 | whitespace added on either side of any text does not change what `strip()` returns |
| Text.StripAllSpace | install.py:995 | a text made only of whitespace strips to the empty string |
| Text.StripPadded | install.py:995 | `strip()` removes exactly the surrounding whitespace of a text whose ends are not whitespace |
| Text.ParseNatToString | install.py:430 | the decimal text of a natural number parses back to that number |

## Left out

- `archinstaller.py`: the graphical front end is not part of this model. It is threads,
  Qt signals and an external shell script.
- The sudo keep-alive thread (install.py:1016-1025) is not modelled: it is concurrency
  and sleeping.
- What the commands themselves do is not modelled. This covers the `sed` edits of
  system files, `systemctl`, `ufw`, `reflector`, `chsh` and the rest. Each call is only
  an exit status or an output text.
- Terminal output is left out: colours, the banner, `print_colored` and the `quiet` flag
  of `install_packages`. The header and progress bar are returned as strings instead of
  being printed.
- Logging and `setup_logging` are left out, because they only write to a log file.
- The contents of the embedded `CONFIGS` and `SCRIPTS` files are left out. `setup_directories`
  receives them as (name, content) tables.
- `Progress.TruncDiv`: the bar uses Python's float division then `int()`. The model uses
  exact integer division truncated toward zero. The two agree for the step counts the
  script uses, but float rounding in general is not modelled.
- `Text.Strip`, `Text.Lower`: only ASCII whitespace and ASCII letters are modelled;
  Unicode whitespace and case mapping are not.
- `main` is not modelled as a whole run. It calls a `show_menu` the script never
  defines (install.py:1008), and it makes fewer `step` calls than the 20 the run state
  announces.
- The configuration-editing steps are not modelled. They are `configure_pacman`, the
  locale, boot loader, shell, firewall and service steps, and the custom script runs.
  Each is a fixed sequence of external commands.
- `ensure_flatpak` and `ensure_yay` are not modelled: they install tools through
  external commands.
- `install_user_programs` as a whole run is not modelled. The model has its list
  selection (`Programs.Select`). Running the chosen lists is `InstallPackages`,
  `InstallFlatpaks` and `InstallAurPackages`. The per-package removal commands are run
  unchecked, so their results never change the run state.
- `removed_packages` is never appended to by the script, so it stays empty in the model.
- `install_mode` is a field of the run state. Its value comes from the menu that `main`
  would show, and that menu is not part of the script.
- Exceptions other than `CalledProcessError` are not modelled. These are I/O errors
  caught by the `except Exception` clauses and `EOFError` at a prompt. An unreadable
  `/proc/cpuinfo` or `/etc/pacman.conf` is the input `None`.
- `Installer.ArchInstaller.PromptReboot`: when the answers run out before a decisive
  one, the model stops and runs nothing. In the script, `input()` would raise at
  end of input instead.
- `Installer.ArchInstaller.constructor` does not call `setup_logging` and `setup_directories`
  the way `__init__` does (install.py:367-368). Setup is the separate method
  `SetupDirectories`, applied to a `FileTree` passed in.
- `Installer.ArchInstaller.SetupDirectories`: `mkdir` failing because a parent
  directory is missing is not modelled, and neither is the mode bits' exact value
  (0o755). The model only records which scripts were made executable.
- A checked command that fails outside a `try` re-raises `CalledProcessError`. Nothing
  catches it, neither the step nor `main` (install.py:1027-1047), so the whole run
  aborts and the summary and reboot prompt never run. The model has no whole run: the
  method returns `Raised` (or `completed == false`) and stops at that point, and what
  would follow is not modelled. Four methods run such a command:
  - `CleanupAndOptimize`: fstrim, both `rm -rf` and `sync` (install.py:938-955);
  - `HandleNvidia`: the legacy `yay` builds (install.py:891-893);
  - `DetectAndInstallGpuDrivers`, through `HandleNvidia`;
  - `PromptReboot`: `sudo reboot` (install.py:998).

On an unrecognised desktop, DEFAULT mode installs no Flatpak application, because the
DEFAULT branch has no `else` (install.py:816-822), while MINIMAL mode falls back to its
generic list (`Programs.FlatpakList`, `Programs.FlatpakEmptyOnlyForDefaultGeneric`).

=== FILE: backends.dfy ===
/** What one run of a per-package install loop does (install.py:606-627 for pacman,
    751-763 for Flatpak, 765-777 for AUR): the commands it runs, the packages it
    records as installed and the error strings it records, as a function of the
    answers the system gives to each query and each install command. */
module Backends {
  import opened Text

  datatype Backend = Pacman | Flatpak | Aur

  /** The "already present?" query issued for `pkg`. */
  function QueryCommand(b: Backend, pkg: string): seq<string>
  {
    if b == Flatpak then ["flatpak", "list", "--app"] else ["pacman", "-Q", pkg]
  }

  /** The install command issued for a package that is not present. */
  function InstallCommand(b: Backend, pkg: string): seq<string>
  {
    match b
    case Pacman => ["sudo", "pacman", "-S", "--noconfirm", "--needed", pkg]
    case Flatpak => ["flatpak", "install", "-y", "--noninteractive", "flathub", pkg]
    case Aur => ["yay", "-S", "--noconfirm", "--needed", pkg]
  }

  /** The error the command runner records before it re-raises a failure. */
  function ExecFailure(command: seq<string>): string
  {
    "Failed to execute: " + Join(command, " ")
  }

  /** The error the loop itself records after catching that failure. */
  function InstallFailure(b: Backend, pkg: string): string
  {
    match b
    case Pacman => "Failed to install " + pkg
    case Flatpak => "Failed to install Flatpak " + pkg
    case Aur => "Failed to install AUR " + pkg
  }

  /** The error strings a failed install leaves behind, spelled out per backend, word by
      word. */
  lemma PacmanFailureText(pkg: string)
    ensures ExecFailure(InstallCommand(Pacman, pkg))
         == "Failed to execute: " + "sudo " + "pacman " + "-S " + "--noconfirm " + "--needed " + pkg
    ensures InstallFailure(Pacman, pkg) == "Failed to install " + pkg
  {
    var t1 := JoinStep("--needed", [pkg], pkg);
    var t2 := JoinStep("--noconfirm", ["--needed", pkg], t1);
    var t3 := JoinStep("-S", ["--noconfirm", "--needed", pkg], t2);
    var t4 := JoinStep("pacman", ["-S", "--noconfirm", "--needed", pkg], t3);
    var t5 := JoinStep("sudo", ["pacman", "-S", "--noconfirm", "--needed", pkg], t4);
    var f := "Failed to execute: ";
    Regroup(f, "sudo ", t4);
    Regroup(f + "sudo ", "pacman ", t3);
    Regroup(f + "sudo " + "pacman ", "-S ", t2);
    Regroup(f + "sudo " + "pacman " + "-S ", "--noconfirm ", t1);
    Regroup(f + "sudo " + "pacman " + "-S " + "--noconfirm ", "--needed ", pkg);
  }

  lemma FlatpakFailureText(pkg: string)
    ensures ExecFailure(InstallCommand(Flatpak, pkg))
         == "Failed to execute: " + "flatpak " + "install " + "-y " + "--noninteractive " + "flathub " + pkg
    ensures InstallFailure(Flatpak, pkg) == "Failed to install Flatpak " + pkg
  {
    var t1 := JoinStep("flathub", [pkg], pkg);
    var t2 := JoinStep("--noninteractive", ["flathub", pkg], t1);
    var t3 := JoinStep("-y", ["--noninteractive", "flathub", pkg], t2);
    var t4 := JoinStep("install", ["-y", "--noninteractive", "flathub", pkg], t3);
    var t5 := JoinStep("flatpak", ["install", "-y", "--noninteractive", "flathub", pkg], t4);
    var f := "Failed to execute: ";
    Regroup(f, "flatpak ", t4);
    Regroup(f + "flatpak ", "install ", t3);
    Regroup(f + "flatpak " + "install ", "-y ", t2);
    Regroup(f + "flatpak " + "install " + "-y ", "--noninteractive ", t1);
    Regroup(f + "flatpak " + "install " + "-y " + "--noninteractive ", "flathub ", pkg);
  }

  lemma AurFailureText(pkg: string)
    ensures ExecFailure(InstallCommand(Aur, pkg))
         == "Failed to execute: " + "yay " + "-S " + "--noconfirm " + "--needed " + pkg
    ensures InstallFailure(Aur, pkg) == "Failed to install AUR " + pkg
  {
    var t1 := JoinStep("--needed", [pkg], pkg);
    var t2 := JoinStep("--noconfirm", ["--needed", pkg], t1);
    var t3 := JoinStep("-S", ["--noconfirm", "--needed", pkg], t2);
    var t4 := JoinStep("yay", ["-S", "--noconfirm", "--needed", pkg], t3);
    var f := "Failed to execute: ";
    Regroup(f, "yay ", t3);
    Regroup(f + "yay ", "-S ", t2);
    Regroup(f + "yay " + "-S ", "--noconfirm ", t1);
    Regroup(f + "yay " + "-S " + "--noconfirm ", "--needed ", pkg);
  }

  /** One step of `Join` with a single space, given the text of the tail. */
  lemma JoinStep(w: string, rest: seq<string>, tail: string) returns (t: string)
    requires |rest| > 0 && Join(rest, " ") == tail
    ensures t == w + " " + tail && Join([w] + rest, " ") == t
  {
    assert ([w] + rest)[1..] == rest;
    t := w + " " + tail;
  }

  lemma Regroup(a: string, b: string, c: string)
    ensures a + (b + c) == a + b + c
  {
  }

  /** What a loop has done so far: commands run, packages recorded, errors recorded. */
  datatype Effect = Effect(ran: seq<seq<string>>, installed: seq<string>, errors: seq<string>)

  const NoEffect := Effect([], [], [])

  function Then(first: Effect, second: Effect): Effect
  {
    Effect(first.ran + second.ran, first.installed + second.installed, first.errors + second.errors)
  }

  /** One iteration: query; skip when present; otherwise install, and on success record
      the package (pacman only), on failure record the two error strings. */
  function PackageEffect(b: Backend, pkg: string, present: bool, installCode: int): Effect
  {
    if present then Effect([QueryCommand(b, pkg)], [], [])
    else if installCode == 0 then
      Effect([QueryCommand(b, pkg), InstallCommand(b, pkg)], if b == Pacman then [pkg] else [], [])
    else
      Effect([QueryCommand(b, pkg), InstallCommand(b, pkg)], [],
             [ExecFailure(InstallCommand(b, pkg)), InstallFailure(b, pkg)])
  }

  /** Every iteration starts with the query; it stops there exactly when the package is
      present; it records errors exactly when the install command fails, and records the
      package as installed only for pacman after a successful install. */
  lemma PackageEffectShape(b: Backend, pkg: string, present: bool, installCode: int)
    ensures var e := PackageEffect(b, pkg, present, installCode);
      |e.ran| >= 1 && e.ran[0] == QueryCommand(b, pkg) &&
      (|e.ran| == 1 <==> present) &&
      (e.errors != [] <==> !present && installCode != 0) &&
      (e.installed != [] <==> b == Pacman && !present && installCode == 0) &&
      (e.installed != [] ==> e.installed == [pkg])
  {
  }

  /** The whole loop over `pkgs`, where `present[i]` is the answer to the i-th query and
      `codes[i]` the exit status of the i-th install command (if it is issued). */
  function LoopEffect(b: Backend, pkgs: seq<string>, present: seq<bool>, codes: seq<int>): Effect
    requires |present| == |pkgs| == |codes|
    decreases |pkgs|
  {
    if |pkgs| == 0 then NoEffect
    else
      var n := |pkgs| - 1;
      Then(LoopEffect(b, pkgs[..n], present[..n], codes[..n]), PackageEffect(b, pkgs[n], present[n], codes[n]))
  }

  /** Running the loop over one more package adds that package's effect at the end. */
  lemma LoopEffectStep(b: Backend, pkgs: seq<string>, present: seq<bool>, codes: seq<int>, k: int)
    requires |present| == |pkgs| == |codes| && 0 <= k < |pkgs|
    ensures LoopEffect(b, pkgs[..k + 1], present[..k + 1], codes[..k + 1])
         == Then(LoopEffect(b, pkgs[..k], present[..k], codes[..k]), PackageEffect(b, pkgs[k], present[k], codes[k]))
  {
    assert pkgs[..k + 1][..k] == pkgs[..k];
    assert present[..k + 1][..k] == present[..k];
    assert codes[..k + 1][..k] == codes[..k];
  }

  /** The loop over a single package is that package's effect. */
  lemma SingleEffect(b: Backend, pkg: string, present: bool, code: int)
    ensures LoopEffect(b, [pkg], [present], [code]) == PackageEffect(b, pkg, present, code)
  {
    assert [pkg][..0] == [] && [present][..0] == [] && [code][..0] == [];
  }

  /** Pacman's answer: exit status 0 of `pacman -Q pkg` means present. */
  function QueryHits(codes: seq<int>): seq<bool>
  {
    seq(|codes|, i requires 0 <= i < |codes| => codes[i] == 0)
  }

  /** Flatpak's answer: the package id occurs in the `flatpak list --app` output. */
  function ListingHits(pkgs: seq<string>, listings: seq<string>): seq<bool>
    requires |pkgs| == |listings|
  {
    seq(|pkgs|, i requires 0 <= i < |pkgs| => Contains(listings[i], pkgs[i]))
  }

  // ---------------------------------------------------------------------
  // Independent descriptions of the outcome, package by package.

  /** The requested packages whose query said "present", in order. */
  function Present(pkgs: seq<string>, present: seq<bool>): seq<string>
    requires |present| == |pkgs|
    decreases |pkgs|
  {
    if |pkgs| == 0 then []
    else
      var n := |pkgs| - 1;
      Present(pkgs[..n], present[..n]) + (if present[n] then [pkgs[n]] else [])
  }

  /** The requested packages whose query did not say "present", in order. */
  function Missing(pkgs: seq<string>, present: seq<bool>): seq<string>
    requires |present| == |pkgs|
    decreases |pkgs|
  {
    if |pkgs| == 0 then []
    else
      var n := |pkgs| - 1;
      Missing(pkgs[..n], present[..n]) + (if present[n] then [] else [pkgs[n]])
  }

  /** Missing packages whose install command exited 0. */
  function Succeeded(pkgs: seq<string>, present: seq<bool>, codes: seq<int>): seq<string>
    requires |present| == |pkgs| == |codes|
    decreases |pkgs|
  {
    if |pkgs| == 0 then []
    else
      var n := |pkgs| - 1;
      Succeeded(pkgs[..n], present[..n], codes[..n]) + (if !present[n] && codes[n] == 0 then [pkgs[n]] else [])
  }

  /** Missing packages whose install command failed. */
  function Failed(pkgs: seq<string>, present: seq<bool>, codes: seq<int>): seq<string>
    requires |present| == |pkgs| == |codes|
    decreases |pkgs|
  {
    if |pkgs| == 0 then []
    else
      var n := |pkgs| - 1;
      Failed(pkgs[..n], present[..n], codes[..n]) + (if !present[n] && codes[n] != 0 then [pkgs[n]] else [])
  }

  /** The pair of error strings for each failed package, in order. */
  function FailureReports(b: Backend, failed: seq<string>): seq<string>
    decreases |failed|
  {
    if |failed| == 0 then []
    else
      var n := |failed| - 1;
      FailureReports(b, failed[..n]) + [ExecFailure(InstallCommand(b, failed[n])), InstallFailure(b, failed[n])]
  }

  /** `a` is `b` with some elements left out, the rest kept in order. */
  predicate IsSubsequence<T(==)>(a: seq<T>, b: seq<T>)
    decreases |b|
  {
    if |a| == 0 then true
    else if |b| == 0 then false
    else if a[|a| - 1] == b[|b| - 1] then IsSubsequence(a[..|a| - 1], b[..|b| - 1])
    else IsSubsequence(a, b[..|b| - 1])
  }

  // ---------------------------------------------------------------------
  // Properties of the loop.

  /** Running the loop over `p1 + p2` is running it over `p1`, then over `p2`: the
      lists only grow by appending, and a failure never stops the loop. */
  lemma {:induction false} LoopEffectAppend(b: Backend, p1: seq<string>, h1: seq<bool>, c1: seq<int>,
                                            p2: seq<string>, h2: seq<bool>, c2: seq<int>)
    requires |h1| == |p1| == |c1| && |h2| == |p2| == |c2|
    ensures LoopEffect(b, p1 + p2, h1 + h2, c1 + c2) == Then(LoopEffect(b, p1, h1, c1), LoopEffect(b, p2, h2, c2))
    decreases |p2|
  {
    if |p2| == 0 {
      assert p1 + p2 == p1 && h1 + h2 == h1 && c1 + c2 == c1;
    } else {
      var n := |p2| - 1;
      var p, h, c := p1 + p2, h1 + h2, c1 + c2;
      var m := |p| - 1;
      assert p[..m] == p1 + p2[..n];
      assert h[..m] == h1 + h2[..n];
      assert c[..m] == c1 + c2[..n];
      assert p[m] == p2[n] && h[m] == h2[n] && c[m] == c2[n];
      var step := PackageEffect(b, p2[n], h2[n], c2[n]);
      var first := LoopEffect(b, p1, h1, c1);
      var rest := LoopEffect(b, p2[..n], h2[..n], c2[..n]);
      calc {
        LoopEffect(b, p, h, c);
        Then(LoopEffect(b, p[..m], h[..m], c[..m]), step);
        Then(LoopEffect(b, p1 + p2[..n], h1 + h2[..n], c1 + c2[..n]), step);
        { LoopEffectAppend(b, p1, h1, c1, p2[..n], h2[..n], c2[..n]); }
        Then(Then(first, rest), step);
        { ThenAssociative(first, rest, step); }
        Then(first, Then(rest, step));
      }
    }
  }

  /** Helper for `LoopEffectAppend`: composing effects is associative. */
  lemma ThenAssociative(e1: Effect, e2: Effect, e3: Effect)
    ensures Then(Then(e1, e2), e3) == Then(e1, Then(e2, e3))
  {
    assert (e1.ran + e2.ran) + e3.ran == e1.ran + (e2.ran + e3.ran);
    assert (e1.installed + e2.installed) + e3.installed == e1.installed + (e2.installed + e3.installed);
    assert (e1.errors + e2.errors) + e3.errors == e1.errors + (e2.errors + e3.errors);
  }

  /** If every query says "present", nothing is installed and nothing is recorded: the
      loop issues exactly one query per package and no install command. */
  lemma {:induction false} AllPresentIsNoop(b: Backend, pkgs: seq<string>, present: seq<bool>, codes: seq<int>)
    requires |present| == |pkgs| == |codes|
    requires forall i :: 0 <= i < |present| ==> present[i]
    ensures var e := LoopEffect(b, pkgs, present, codes);
      e.installed == [] && e.errors == [] && |e.ran| == |pkgs| &&
      forall k :: 0 <= k < |pkgs| ==> e.ran[k] == QueryCommand(b, pkgs[k])
    decreases |pkgs|
  {
    if |pkgs| > 0 {
      var n := |pkgs| - 1;
      AllPresentIsNoop(b, pkgs[..n], present[..n], codes[..n]);
    }
  }

  /** The packages the loop records as installed: for pacman exactly the missing
      packages whose install succeeded, in order; Flatpak and AUR record none. */
  lemma {:induction false} InstalledAreSucceeded(b: Backend, pkgs: seq<string>, present: seq<bool>, codes: seq<int>)
    requires |present| == |pkgs| == |codes|
    ensures LoopEffect(b, pkgs, present, codes).installed == (if b == Pacman then Succeeded(pkgs, present, codes) else [])
    decreases |pkgs|
  {
    if |pkgs| > 0 {
      var n := |pkgs| - 1;
      InstalledAreSucceeded(b, pkgs[..n], present[..n], codes[..n]);
    }
  }

  /** The errors the loop records: the two strings for each failed package, in order. */
  lemma {:induction false} ErrorsAreFailureReports(b: Backend, pkgs: seq<string>, present: seq<bool>, codes: seq<int>)
    requires |present| == |pkgs| == |codes|
    ensures LoopEffect(b, pkgs, present, codes).errors == FailureReports(b, Failed(pkgs, present, codes))
    decreases |pkgs|
  {
    if |pkgs| > 0 {
      var n := |pkgs| - 1;
      ErrorsAreFailureReports(b, pkgs[..n], present[..n], codes[..n]);
      var f := Failed(pkgs[..n], present[..n], codes[..n]);
      var x := pkgs[n];
      assert LoopEffect(b, pkgs, present, codes).errors
          == LoopEffect(b, pkgs[..n], present[..n], codes[..n]).errors + PackageEffect(b, x, present[n], codes[n]).errors;
      if !present[n] && codes[n] != 0 {
        assert Failed(pkgs, present, codes) == f + [x];
        FailureReportsSnoc(b, f, x);
      } else {
        assert Failed(pkgs, present, codes) == f;
        assert PackageEffect(b, x, present[n], codes[n]).errors == [];
      }
    }
  }

  lemma FailureReportsSnoc(b: Backend, f: seq<string>, x: string)
    ensures FailureReports(b, f + [x]) == FailureReports(b, f) + [ExecFailure(InstallCommand(b, x)), InstallFailure(b, x)]
  {
    assert (f + [x])[..|f|] == f;
  }

  /** One query per package plus one install per missing package is run, and every
      missing package either succeeded or failed. */
  lemma {:induction false} CommandCounts(b: Backend, pkgs: seq<string>, present: seq<bool>, codes: seq<int>)
    requires |present| == |pkgs| == |codes|
    ensures |LoopEffect(b, pkgs, present, codes).ran| == |pkgs| + |Missing(pkgs, present)|
    ensures |Missing(pkgs, present)| == |Succeeded(pkgs, present, codes)| + |Failed(pkgs, present, codes)|
    decreases |pkgs|
  {
    if |pkgs| > 0 {
      var n := |pkgs| - 1;
      CommandCounts(b, pkgs[..n], present[..n], codes[..n]);
    }
  }

  lemma {:induction false} SubsequenceExtend<T>(a: seq<T>, b: seq<T>, x: T)
    requires IsSubsequence(a, b)
    ensures IsSubsequence(a, b + [x])
    decreases |b|, 1
  {
    var c := b + [x];
    assert c[..|c| - 1] == b;
    if |a| > 0 && a[|a| - 1] == x {
      SubsequenceDropLast(a, b);
    }
  }

  lemma {:induction false} SubsequenceDropLast<T>(a: seq<T>, b: seq<T>)
    requires |a| > 0 && IsSubsequence(a, b)
    ensures IsSubsequence(a[..|a| - 1], b)
    decreases |b|, 0
  {
    var a' := a[..|a| - 1];
    var b' := b[..|b| - 1];
    var y := b[|b| - 1];
    assert b' + [y] == b;
    if a[|a| - 1] == y {
      // IsSubsequence(a', b') holds; extend it by y.
      SubsequenceExtend(a', b', y);
    } else {
      // IsSubsequence(a, b') holds; drop a's last there, then extend by y.
      SubsequenceDropLast(a, b');
      SubsequenceExtend(a', b', y);
    }
  }

  /** The packages recorded as installed are an in-order subsequence of the packages
      not reported present, which are an in-order subsequence of the requested list. */
  lemma {:induction false} SucceededIsSubsequence(pkgs: seq<string>, present: seq<bool>, codes: seq<int>)
    requires |present| == |pkgs| == |codes|
    ensures IsSubsequence(Succeeded(pkgs, present, codes), Missing(pkgs, present))
    ensures IsSubsequence(Missing(pkgs, present), pkgs)
    decreases |pkgs|
  {
    if |pkgs| > 0 {
      var n := |pkgs| - 1;
      var x := pkgs[n];
      var s := Succeeded(pkgs[..n], present[..n], codes[..n]);
      var m := Missing(pkgs[..n], present[..n]);
      SucceededIsSubsequence(pkgs[..n], present[..n], codes[..n]);
      assert pkgs[..n] + [x] == pkgs;
      if present[n] {
        assert Missing(pkgs, present) == m;
        assert Succeeded(pkgs, present, codes) == s;
        SubsequenceExtend(m, pkgs[..n], x);
      } else {
        assert Missing(pkgs, present) == m + [x];
        SnocSubsequence(m, pkgs[..n], x);
        if codes[n] == 0 {
          assert Succeeded(pkgs, present, codes) == s + [x];
          SnocSubsequence(s, m, x);
        } else {
          assert Succeeded(pkgs, present, codes) == s;
          SubsequenceExtend(s, m, x);
        }
      }
    }
  }

  lemma SnocSubsequence<T>(a: seq<T>, b: seq<T>, x: T)
    requires IsSubsequence(a, b)
    ensures IsSubsequence(a + [x], b + [x])
  {
    assert (a + [x])[..|a|] == a;
    assert (b + [x])[..|b|] == b;
  }

  /** A missing package whose install fails is reported, so the error list of the run
      is non-empty afterwards whatever it held before. */
  lemma FailureIsReported(b: Backend, pkgs: seq<string>, present: seq<bool>, codes: seq<int>, i: int)
    requires |present| == |pkgs| == |codes|
    requires 0 <= i < |pkgs| && !present[i] && codes[i] != 0
    ensures var e := LoopEffect(b, pkgs, present, codes);
      ExecFailure(InstallCommand(b, pkgs[i])) in e.errors && InstallFailure(b, pkgs[i]) in e.errors
  {
    var j := i + 1;
    assert pkgs == pkgs[..j] + pkgs[j..];
    assert present == present[..j] + present[j..];
    assert codes == codes[..j] + codes[j..];
    LoopEffectAppend(b, pkgs[..j], present[..j], codes[..j], pkgs[j..], present[j..], codes[j..]);
    assert pkgs[..j][..i] == pkgs[..i];
  }
}

=== FILE: installer.dfy ===
/** The installer's run state (`InstallerConfig`, install.py:334-352) and the operations
    of `ArchInstaller` that change it: announcing a step, running a command, the three
    per-package install loops, kernel headers, and the final cleanup. Every command's
    exit status and output is an input: `queryCodes[i]` is what the i-th query returned,
    `installCodes[i]` what the i-th install command returned. */
module Installer {
  import opened Text
  import opened Backends
  import opened Progress
  import opened Setup
  import Rules

  datatype InstallMode = DEFAULT | MINIMAL

  /** The step count the run state starts with. */
  const TotalSteps := 20

  /** Every field of the run state, as one value. */
  datatype ConfigView = ConfigView(
    scriptDir: string, configsDir: string, scriptsDir: string, installMode: InstallMode,
    errors: seq<string>, installedPackages: seq<string>, removedPackages: seq<string>,
    currentStep: int, totalSteps: int)

  class InstallerConfig {
    var scriptDir: string
    var configsDir: string
    var scriptsDir: string
    var installMode: InstallMode
    var errors: seq<string>
    var installedPackages: seq<string>
    var removedPackages: seq<string>
    var currentStep: int
    var totalSteps: int

    function View(): ConfigView
      reads this
    {
      ConfigView(scriptDir, configsDir, scriptsDir, installMode, errors, installedPackages,
                 removedPackages, currentStep, totalSteps)
    }

    /** The dataclass with its defaults: empty lists, step 1 of 20. */
    constructor (scriptDir: string, configsDir: string, scriptsDir: string, installMode: InstallMode)
      ensures View() == ConfigView(scriptDir, configsDir, scriptsDir, installMode, [], [], [], 1, TotalSteps)
    {
      this.scriptDir := scriptDir;
      this.configsDir := configsDir;
      this.scriptsDir := scriptsDir;
      this.installMode := installMode;
      errors := [];
      installedPackages := [];
      removedPackages := [];
      currentStep := 1;
      totalSteps := TotalSteps;
    }
  }

  /** What `run_command` hands back: the finished process, or the exception it re-raised. */
  datatype CommandResult = Completed(returncode: int, stdout: string) | Raised

  /** The kernels whose headers are installed when present. */
  const Kernels: seq<string> := ["linux", "linux-lts", "linux-zen", "linux-hardened"]

  /** The kernels among `Kernels` whose `pacman -Q` query exited 0, in order. */
  function DetectedKernels(kernelCodes: seq<int>): seq<string>
    requires |kernelCodes| == |Kernels|
  {
    Present(Kernels, QueryHits(kernelCodes))
  }

  /** `kernel + "-headers"` for each kernel, in order. */
  function Headers(kernels: seq<string>): (hs: seq<string>)
    ensures |hs| == |kernels|
    ensures forall k :: 0 <= k < |kernels| ==> hs[k] == kernels[k] + "-headers"
    decreases |kernels|
  {
    if |kernels| == 0 then []
    else Headers(kernels[..|kernels| - 1]) + [kernels[|kernels| - 1] + "-headers"]
  }

  // Commands of the cleanup step.
  const LsblkCommand: seq<string> := ["lsblk", "-d", "-o", "rota"]
  const FstrimCommand: seq<string> := ["sudo", "fstrim", "-v", "/"]
  const CleanTmpCommand: seq<string> := ["sudo", "rm", "-rf", "/tmp/*"]
  const CleanYayCommand: seq<string> := ["sudo", "rm", "-rf", "/tmp/yay"]
  const SyncCommand: seq<string> := ["sync"]

  /** Exit statuses and output of the commands the cleanup step runs. */
  datatype CleanupAnswers = CleanupAnswers(
    lsblkCode: int, lsblkOut: string, fstrimCode: int, cleanTmpCode: int, cleanYayCode: int, syncCode: int)

  /** The SSD probe: `lsblk` ran and its output contains a "0" (non-rotational). */
  function IsSsd(env: CleanupAnswers): bool
  {
    env.lsblkCode == 0 && Contains(env.lsblkOut, "0")
  }

  /** The errors the probe leaves behind: a failed `lsblk` is recorded, then swallowed. */
  function ProbeErrors(env: CleanupAnswers): seq<string>
  {
    if env.lsblkCode != 0 then [ExecFailure(LsblkCommand)] else []
  }

  /** The cleanup step gets past its three unguarded commands (fstrim when on an SSD,
      and the two `rm -rf`) to the point where it decides about the temporary directories. */
  function ReachesGate(env: CleanupAnswers): bool
  {
    !(IsSsd(env) && env.fstrimCode != 0) && env.cleanTmpCode == 0 && env.cleanYayCode == 0
  }

  /** The cleanup gate: the `configs` and `scripts` directories are removed only when the
      step reaches the gate and the error list is empty at that moment. */
  function CleanupGate(prior: seq<string>, env: CleanupAnswers): (g: bool)
    ensures g ==> env.cleanTmpCode == 0 && env.cleanYayCode == 0 && (IsSsd(env) ==> env.fstrimCode == 0)
    ensures g ==> AbortErrors(env) == [] || AbortErrors(env) == [ExecFailure(SyncCommand)]
  {
    ReachesGate(env) && prior + ProbeErrors(env) == []
  }

  /** The error the cleanup step records after the probe: the message for the first of
      its unguarded commands that fails, which also ends the step; none if all succeed. */
  function AbortErrors(env: CleanupAnswers): seq<string>
  {
    if IsSsd(env) && env.fstrimCode != 0 then [ExecFailure(FstrimCommand)]
    else if env.cleanTmpCode != 0 then [ExecFailure(CleanTmpCommand)]
    else if env.cleanYayCode != 0 then [ExecFailure(CleanYayCommand)]
    else if env.syncCode != 0 then [ExecFailure(SyncCommand)]
    else []
  }

  /** The directories survive any run that recorded an error, and any run whose SSD probe
      failed: the gate opens only on a clean error list and a working `lsblk`. */
  lemma GateNeedsCleanRun(prior: seq<string>, env: CleanupAnswers)
    ensures CleanupGate(prior, env) <==> ReachesGate(env) && prior == [] && env.lsblkCode == 0
  {
  }

  /** A package that failed to install anywhere earlier in the run keeps the temporary
      directories in place, whatever else was recorded before or after it. */
  lemma FailedInstallKeepsTempDirs(b: Backend, pkgs: seq<string>, present: seq<bool>, codes: seq<int>,
                                   i: int, before: seq<string>, after: seq<string>, env: CleanupAnswers)
    requires |present| == |pkgs| == |codes|
    requires 0 <= i < |pkgs| && !present[i] && codes[i] != 0
    ensures !CleanupGate(before + LoopEffect(b, pkgs, present, codes).errors + after, env)
  {
    FailureIsReported(b, pkgs, present, codes, i);
  }

  /** The packages the NVIDIA menu passes to `install_packages`: the chosen pacman set,
      or none when the choice runs `yay` or skips. */
  function NvidiaPacman(answer: string): seq<string>
  {
    match Rules.NvidiaChoice(answer)
    case InstallPacman(pkgs) => pkgs
    case _ => []
  }

  /** The packages `detect_and_install_gpu_drivers` passes to `install_packages`: none
      when `lspci` fails, the menu's set for NVIDIA, the vendor's set otherwise. */
  function GpuPacman(lspciCode: int, lspciOut: string, answer: string): seq<string>
  {
    if lspciCode != 0 then []
    else if Rules.DetectGpu(lspciOut) == Rules.Nvidia then NvidiaPacman(answer)
    else Rules.GpuPackages(Rules.DetectGpu(lspciOut))
  }

  /** Only a successful `lspci` leads to driver packages, the NVIDIA menu's skip and
      `yay` choices install none through pacman, and an AMD or Intel machine always
      gets Mesa. */
  lemma GpuPacmanCases(lspciCode: int, lspciOut: string, answer: string)
    ensures lspciCode != 0 ==> GpuPacman(lspciCode, lspciOut, answer) == []
    ensures lspciCode == 0 && Rules.DetectGpu(lspciOut) == Rules.Nvidia ==>
      (GpuPacman(lspciCode, lspciOut, answer) == [] <==> !Rules.NvidiaChoice(answer).InstallPacman?)
    ensures lspciCode == 0 && Rules.DetectGpu(lspciOut) in {Rules.Amd, Rules.Intel} ==>
      "mesa" in GpuPacman(lspciCode, lspciOut, answer)
  {
    if lspciCode == 0 && Rules.DetectGpu(lspciOut) in {Rules.Amd, Rules.Intel} {
      Rules.MesaForAmdAndIntel(Rules.DetectGpu(lspciOut));
    }
  }

  class ArchInstaller {
    const config: InstallerConfig
    /** The helper utilities installed first (install.py:362-366). */
    const helperUtils: seq<string>

    ghost predicate Valid()
      reads config
    {
      config.totalSteps == TotalSteps && config.currentStep >= 1
    }

    /** `ArchInstaller()`: a fresh run state in DEFAULT mode. `parentDir` is the directory
        holding the script as named, `absoluteDir` the same directory made absolute. */
    constructor (parentDir: string, absoluteDir: string)
      ensures fresh(config) && Valid()
      ensures config.View() == ConfigView(absoluteDir, parentDir + "/configs", parentDir + "/scripts",
                                          DEFAULT, [], [], [], 1, TotalSteps)
      ensures helperUtils == ["base-devel", "bluez-utils", "cronie", "curl", "eza",
                              "fastfetch", "figlet", "flatpak", "fzf", "git", "openssh",
                              "pacman-contrib", "reflector", "rsync", "ufw", "zoxide"]
    {
      config := new InstallerConfig(absoluteDir, parentDir + "/configs", parentDir + "/scripts", DEFAULT);
      helperUtils := ["base-devel", "bluez-utils", "cronie", "curl", "eza",
                      "fastfetch", "figlet", "flatpak", "fzf", "git", "openssh",
                      "pacman-contrib", "reflector", "rsync", "ufw", "zoxide"];
    }

    /** `install_cpu_microcode`: one step, then the microcode package chosen from the
        CPU description (None when `/proc/cpuinfo` cannot be read) goes through
        `install_packages`. */
    method InstallCpuMicrocode(cpuInfo: Rules.Option<string>, queryCodes: seq<int>, installCodes: seq<int>)
      requires Valid()
      requires |queryCodes| == |Rules.Microcode(cpuInfo)| == |installCodes|
      modifies config
      ensures Valid()
      ensures var e := LoopEffect(Pacman, Rules.Microcode(cpuInfo), QueryHits(queryCodes), installCodes);
        config.View() == old(config.View()).(currentStep := old(config.currentStep) + 1,
                                             installedPackages := old(config.installedPackages) + e.installed,
                                             errors := old(config.errors) + e.errors)
    {
      var _, _ := Step("Installing CPU microcode");
      if cpuInfo.Some? && Contains(cpuInfo.value, "Intel") {
        var _ := InstallPackages(["intel-ucode"], queryCodes, installCodes);
      } else if cpuInfo.Some? && Contains(cpuInfo.value, "AMD") {
        var _ := InstallPackages(["amd-ucode"], queryCodes, installCodes);
      } else {
        assert LoopEffect(Pacman, Rules.Microcode(cpuInfo), QueryHits(queryCodes), installCodes) == NoEffect;
      }
    }

    /** `_handle_nvidia_installation`: a pacman set goes through `install_packages`; a
        legacy driver is one `yay` command through the command runner with its status
        checked, whose result is returned; "5" does nothing. */
    method HandleNvidia(answer: string, queryCodes: seq<int>, installCodes: seq<int>, yayCode: int)
      returns (yay: Rules.Option<CommandResult>)
      requires |queryCodes| == |NvidiaPacman(answer)| == |installCodes|
      modifies config
      ensures yay.Some? == Rules.NvidiaChoice(answer).RunYay?
      ensures yay.Some? ==> yay.value == (if yayCode != 0 then Raised else Completed(yayCode, ""))
      ensures var e := LoopEffect(Pacman, NvidiaPacman(answer), QueryHits(queryCodes), installCodes);
        config.installedPackages == old(config.installedPackages) + e.installed &&
        config.errors == old(config.errors) + e.errors +
          (if yay == Rules.Some(Raised) then [ExecFailure(Rules.NvidiaChoice(answer).command)] else [])
      ensures config.View() == old(config.View()).(installedPackages := config.installedPackages, errors := config.errors)
    {
      var action := Rules.NvidiaChoice(answer);
      match action
      case InstallPacman(pkgs) =>
        var _ := InstallPackages(pkgs, queryCodes, installCodes);
        yay := Rules.None;
      case RunYay(command) =>
        assert LoopEffect(Pacman, NvidiaPacman(answer), QueryHits(queryCodes), installCodes) == NoEffect;
        var r := RunCommand(command, true, yayCode, "");
        yay := Rules.Some(r);
      case SkipDriver =>
        assert LoopEffect(Pacman, NvidiaPacman(answer), QueryHits(queryCodes), installCodes) == NoEffect;
        yay := Rules.None;
    }

    /** `detect_and_install_gpu_drivers`: one step; `lspci` with its status checked (a
        failure is recorded and ends the step); then NVIDIA goes to the driver menu
        (`answer`), AMD and Intel get their packages, anything else gets nothing. Returns
        the result of the menu's `yay` command when one ran. */
    method DetectAndInstallGpuDrivers(lspciCode: int, lspciOut: string, answer: string,
                                      queryCodes: seq<int>, installCodes: seq<int>, yayCode: int)
      returns (yay: Rules.Option<CommandResult>)
      requires Valid()
      requires |queryCodes| == |GpuPacman(lspciCode, lspciOut, answer)| == |installCodes|
      modifies config
      ensures Valid()
      ensures yay.Some? == (lspciCode == 0 && Rules.DetectGpu(lspciOut) == Rules.Nvidia && Rules.NvidiaChoice(answer).RunYay?)
      ensures yay.Some? ==> yay.value == (if yayCode != 0 then Raised else Completed(yayCode, ""))
      ensures var e := LoopEffect(Pacman, GpuPacman(lspciCode, lspciOut, answer), QueryHits(queryCodes), installCodes);
        config.installedPackages == old(config.installedPackages) + e.installed &&
        config.errors == old(config.errors) + (if lspciCode != 0 then [ExecFailure(["lspci"])] else []) + e.errors +
          (if yay == Rules.Some(Raised) then [ExecFailure(Rules.NvidiaChoice(answer).command)] else [])
      ensures config.View() == old(config.View()).(currentStep := old(config.currentStep) + 1,
                                                   installedPackages := config.installedPackages,
                                                   errors := config.errors)
    {
      var _, _ := Step("Detecting GPU and installing drivers");
      var lspci := RunCommand(["lspci"], true, lspciCode, lspciOut);
      ghost var e := LoopEffect(Pacman, GpuPacman(lspciCode, lspciOut, answer), QueryHits(queryCodes), installCodes);
      if lspci.Raised? {
        assert e == NoEffect;
        return Rules.None;
      }
      var gpuInfo := lspci.stdout;
      if Contains(gpuInfo, "NVIDIA") {
        yay := HandleNvidia(answer, queryCodes, installCodes, yayCode);
      } else if Contains(gpuInfo, "AMD") {
        var _ := InstallPackages(["xf86-video-amdgpu", "mesa"], queryCodes, installCodes);
        yay := Rules.None;
      } else if Contains(gpuInfo, "Intel") {
        var _ := InstallPackages(["mesa", "xf86-video-intel"], queryCodes, installCodes);
        yay := Rules.None;
      } else {
        assert e == NoEffect;
        yay := Rules.None;
      }
    }

    /** `prompt_reboot`: asks until an answer reboots or declines, taking `answers` in
        order; a reboot runs `sudo reboot` with its status checked (`rebootCode`).
        Returns how many answers were read and, when the reboot command ran, its
        result. When the answers run out without a decision, input ends and nothing
        runs. */
    method PromptReboot(answers: seq<string>, rebootCode: int) returns (asked: nat, reboot: Rules.Option<CommandResult>)
      modifies config
      ensures var k := Rules.FirstDecisive(answers);
        asked == (if k < |answers| then k + 1 else |answers|) &&
        reboot.Some? == (k < |answers| && Rules.ClassifyReboot(answers[k]) == Rules.Reboot)
      ensures reboot.Some? ==> reboot.value == (if rebootCode != 0 then Raised else Completed(rebootCode, ""))
      ensures config.errors == old(config.errors) +
        (if reboot == Rules.Some(Raised) then [ExecFailure(["sudo", "reboot"])] else [])
      ensures config.View() == old(config.View()).(errors := config.errors)
    {
      var i := 0;
      while i < |answers|
        invariant 0 <= i <= |answers|
        invariant forall j :: 0 <= j < i ==> Rules.ClassifyReboot(answers[j]) == Rules.AskAgain
        invariant config.View() == old(config.View())
      {
        var choice := Rules.ClassifyReboot(answers[i]);
        if choice == Rules.Reboot {
          var r := RunCommand(["sudo", "reboot"], true, rebootCode, "");
          return i + 1, Rules.Some(r);
        } else if choice == Rules.Decline {
          return i + 1, Rules.None;
        }
        i := i + 1;
      }
      return |answers|, Rules.None;
    }

    /** `setup_directories`: makes the configs and scripts directories, then writes each
        embedded config and script file whose path does not exist yet; the scripts it
        writes become executable. `configs` and `scripts` are the embedded (name, content)
        tables. The run state is not touched. */
    method SetupDirectories(fs: FileTree, configs: seq<(string, string)>, scripts: seq<(string, string)>)
      returns (written: seq<string>)
      modifies fs
      ensures fs.dirs == old(fs.dirs) + {config.configsDir, config.scriptsDir}
      ensures var afterConfigs := AddMissing(old(fs.files), config.configsDir, configs);
        fs.files == AddMissing(afterConfigs, config.scriptsDir, scripts) &&
        written == NewPaths(old(fs.files), config.configsDir, configs)
                   + NewPaths(afterConfigs, config.scriptsDir, scripts) &&
        fs.executable == old(fs.executable) + Elements(NewPaths(afterConfigs, config.scriptsDir, scripts))
    {
      fs.MakeDir(config.configsDir);
      fs.MakeDir(config.scriptsDir);
      var fromConfigs := fs.WriteMissing(config.configsDir, configs, false);
      var fromScripts := fs.WriteMissing(config.scriptsDir, scripts, true);
      written := fromConfigs + fromScripts;
    }

    /** `step`: prints the header with the current index and the progress bar, then moves
        to the next step; nothing else in the run state changes. */
    method Step(description: string) returns (header: string, bar: string)
      requires Valid()
      modifies config
      ensures Valid()
      ensures header == StepHeader(old(config.currentStep), description)
      ensures bar == ProgressLine(old(config.currentStep), config.totalSteps)
      ensures config.View() == old(config.View()).(currentStep := old(config.currentStep) + 1)
    {
      header := StepHeader(config.currentStep, description);
      bar := ProgressLine(config.currentStep, config.totalSteps);
      config.currentStep := config.currentStep + 1;
    }

    /** `run_command`: with `check` set, a non-zero exit is recorded as
        "Failed to execute: <command>" and re-raised; otherwise the result is returned. */
    method RunCommand(command: seq<string>, check: bool, exitCode: int, stdout: string) returns (r: CommandResult)
      modifies config
      ensures r == if check && exitCode != 0 then Raised else Completed(exitCode, stdout)
      ensures config.errors == old(config.errors) + if r.Raised? then [ExecFailure(command)] else []
      ensures config.View() == old(config.View()).(errors := config.errors)
    {
      if check && exitCode != 0 {
        config.errors := config.errors + [ExecFailure(command)];
        r := Raised;
      } else {
        r := Completed(exitCode, stdout);
      }
    }

    /** The body the three install loops share, once the query has answered: skip a
        package that is present; otherwise run the install command with its status
        checked; on success pacman records the package, on failure the loop records
        "Failed to install ..." after the command runner's own message. Returns the
        commands run for this package, the query first. */
    method PackageStep(b: Backend, pkg: string, present: bool, installCode: int) returns (cmds: seq<seq<string>>)
      modifies config
      ensures var one := PackageEffect(b, pkg, present, installCode);
        cmds == one.ran &&
        config.installedPackages == old(config.installedPackages) + one.installed &&
        config.errors == old(config.errors) + one.errors
      ensures config.View() == old(config.View()).(installedPackages := config.installedPackages, errors := config.errors)
    {
      cmds := [QueryCommand(b, pkg)];
      if present {
        return;
      }
      var install := RunCommand(InstallCommand(b, pkg), true, installCode, "");
      cmds := cmds + [InstallCommand(b, pkg)];
      if install.Raised? {
        config.errors := config.errors + [InstallFailure(b, pkg)];
      } else if b == Pacman {
        config.installedPackages := config.installedPackages + [pkg];
      }
    }

    /** A package step preceded by its query, run through the command runner with its
        status unchecked (pacman and AUR): the package counts as present exactly when the
        query exits 0. */
    method QueriedPackageStep(b: Backend, pkg: string, queryCode: int, installCode: int) returns (cmds: seq<seq<string>>)
      modifies config
      ensures var one := PackageEffect(b, pkg, queryCode == 0, installCode);
        cmds == one.ran &&
        config.installedPackages == old(config.installedPackages) + one.installed &&
        config.errors == old(config.errors) + one.errors
      ensures config.View() == old(config.View()).(installedPackages := config.installedPackages, errors := config.errors)
    {
      var query := RunCommand(QueryCommand(b, pkg), false, queryCode, "");
      cmds := PackageStep(b, pkg, query.returncode == 0, installCode);
    }

    /** `install_packages`: the pacman loop. Returns the commands it ran. */
    method InstallPackages(packages: seq<string>, queryCodes: seq<int>, installCodes: seq<int>)
      returns (ran: seq<seq<string>>)
      requires |queryCodes| == |packages| == |installCodes|
      modifies config
      ensures var e := LoopEffect(Pacman, packages, QueryHits(queryCodes), installCodes);
        ran == e.ran &&
        config.View() == old(config.View()).(installedPackages := old(config.installedPackages) + e.installed,
                                             errors := old(config.errors) + e.errors)
    {
      ghost var present := QueryHits(queryCodes);
      ghost var done := NoEffect;
      ran := [];
      var i := 0;
      while i < |packages|
        invariant 0 <= i <= |packages|
        invariant done == LoopEffect(Pacman, packages[..i], present[..i], installCodes[..i])
        invariant ran == done.ran
        invariant config.installedPackages == old(config.installedPackages) + done.installed
        invariant config.errors == old(config.errors) + done.errors
        invariant config.View() == old(config.View()).(installedPackages := config.installedPackages, errors := config.errors)
      {
        var pkg := packages[i];
        var cmds := QueriedPackageStep(Pacman, pkg, queryCodes[i], installCodes[i]);
        ran := ran + cmds;
        LoopEffectStep(Pacman, packages, present, installCodes, i);
        done := Then(done, PackageEffect(Pacman, pkg, present[i], installCodes[i]));
        i := i + 1;
      }
      assert packages[..i] == packages && present[..i] == present && installCodes[..i] == installCodes;
    }

    /** `install_flatpaks`: before each package the installed-application listing is read
        again; `listings[i]` is what it printed before the i-th package. The installed
        list is never touched. */
    method InstallFlatpaks(flatpaks: seq<string>, listings: seq<string>, installCodes: seq<int>)
      returns (ran: seq<seq<string>>)
      requires |listings| == |flatpaks| == |installCodes|
      modifies config
      ensures var e := LoopEffect(Flatpak, flatpaks, ListingHits(flatpaks, listings), installCodes);
        ran == e.ran &&
        config.View() == old(config.View()).(errors := old(config.errors) + e.errors)
    {
      ghost var present := ListingHits(flatpaks, listings);
      ghost var done := NoEffect;
      ran := [];
      var i := 0;
      while i < |flatpaks|
        invariant 0 <= i <= |flatpaks|
        invariant done == LoopEffect(Flatpak, flatpaks[..i], present[..i], installCodes[..i])
        invariant ran == done.ran && done.installed == []
        invariant config.errors == old(config.errors) + done.errors
        invariant config.View() == old(config.View()).(errors := config.errors)
      {
        var pkg := flatpaks[i];
        assert present[i] == Contains(listings[i], pkg);
        var cmds := PackageStep(Flatpak, pkg, Contains(listings[i], pkg), installCodes[i]);
        ran := ran + cmds;
        LoopEffectStep(Flatpak, flatpaks, present, installCodes, i);
        done := Then(done, PackageEffect(Flatpak, pkg, present[i], installCodes[i]));
        i := i + 1;
      }
      assert flatpaks[..i] == flatpaks && present[..i] == present && installCodes[..i] == installCodes;
    }

    /** `install_aur_packages`: the pacman query, then `yay`; the installed list is never
        touched. */
    method InstallAurPackages(aurPackages: seq<string>, queryCodes: seq<int>, installCodes: seq<int>)
      returns (ran: seq<seq<string>>)
      requires |queryCodes| == |aurPackages| == |installCodes|
      modifies config
      ensures var e := LoopEffect(Aur, aurPackages, QueryHits(queryCodes), installCodes);
        ran == e.ran &&
        config.View() == old(config.View()).(errors := old(config.errors) + e.errors)
    {
      ghost var present := QueryHits(queryCodes);
      ghost var done := NoEffect;
      ran := [];
      var i := 0;
      while i < |aurPackages|
        invariant 0 <= i <= |aurPackages|
        invariant done == LoopEffect(Aur, aurPackages[..i], present[..i], installCodes[..i])
        invariant ran == done.ran && done.installed == []
        invariant config.errors == old(config.errors) + done.errors
        invariant config.View() == old(config.View()).(errors := config.errors)
      {
        var pkg := aurPackages[i];
        var cmds := QueriedPackageStep(Aur, pkg, queryCodes[i], installCodes[i]);
        ran := ran + cmds;
        LoopEffectStep(Aur, aurPackages, present, installCodes, i);
        done := Then(done, PackageEffect(Aur, pkg, present[i], installCodes[i]));
        i := i + 1;
      }
      assert aurPackages[..i] == aurPackages && present[..i] == present && installCodes[..i] == installCodes;
    }

    /** `install_kernel_headers_for_all`: one step; query each kernel; install
        `<kernel>-headers` for each one found, one `install_packages` call apiece.
        `headerQueryCodes[j]` and `headerInstallCodes[j]` answer the j-th such call. */
    method InstallKernelHeadersForAll(kernelCodes: seq<int>, headerQueryCodes: seq<int>, headerInstallCodes: seq<int>)
      requires Valid()
      requires |kernelCodes| == |Kernels|
      requires |headerQueryCodes| == |DetectedKernels(kernelCodes)| == |headerInstallCodes|
      modifies config
      ensures Valid()
      ensures var e := LoopEffect(Pacman, Headers(DetectedKernels(kernelCodes)), QueryHits(headerQueryCodes), headerInstallCodes);
        config.View() == old(config.View()).(currentStep := old(config.currentStep) + 1,
                                             installedPackages := old(config.installedPackages) + e.installed,
                                             errors := old(config.errors) + e.errors)
    {
      var _, _ := Step("Installing kernel headers");
      var kernelTypes := DetectKernelTypes(kernelCodes);
      if kernelTypes == [] {
        assert LoopEffect(Pacman, Headers(kernelTypes), QueryHits(headerQueryCodes), headerInstallCodes) == NoEffect;
        return;
      }
      InstallHeaders(kernelTypes, headerQueryCodes, headerInstallCodes);
    }

    /** The installing half of `install_kernel_headers_for_all`: one `install_packages`
        call per detected kernel, for `<kernel>-headers`. */
    method InstallHeaders(kernelTypes: seq<string>, headerQueryCodes: seq<int>, headerInstallCodes: seq<int>)
      requires |headerQueryCodes| == |kernelTypes| == |headerInstallCodes|
      modifies config
      ensures var e := LoopEffect(Pacman, Headers(kernelTypes), QueryHits(headerQueryCodes), headerInstallCodes);
        config.View() == old(config.View()).(installedPackages := old(config.installedPackages) + e.installed,
                                             errors := old(config.errors) + e.errors)
    {
      ghost var headers := Headers(kernelTypes);
      ghost var hits := QueryHits(headerQueryCodes);
      ghost var done := NoEffect;
      var k := 0;
      while k < |kernelTypes|
        invariant 0 <= k <= |kernelTypes|
        invariant done == LoopEffect(Pacman, headers[..k], hits[..k], headerInstallCodes[..k])
        invariant config.installedPackages == old(config.installedPackages) + done.installed
        invariant config.errors == old(config.errors) + done.errors
        invariant config.View() == old(config.View()).(installedPackages := config.installedPackages, errors := config.errors)
      {
        InstallOneHeader(kernelTypes[k], headerQueryCodes[k], headerInstallCodes[k]);
        LoopEffectStep(Pacman, headers, hits, headerInstallCodes, k);
        done := Then(done, PackageEffect(Pacman, headers[k], hits[k], headerInstallCodes[k]));
        k := k + 1;
      }
      assert headers[..k] == headers && hits[..k] == hits && headerInstallCodes[..k] == headerInstallCodes;
    }

    /** One iteration of that loop: `install_packages([kernel + "-headers"])`. */
    method InstallOneHeader(kernel: string, queryCode: int, installCode: int)
      modifies config
      ensures var one := PackageEffect(Pacman, kernel + "-headers", queryCode == 0, installCode);
        config.installedPackages == old(config.installedPackages) + one.installed &&
        config.errors == old(config.errors) + one.errors
      ensures config.View() == old(config.View()).(installedPackages := config.installedPackages, errors := config.errors)
    {
      var pkg := kernel + "-headers";
      assert QueryHits([queryCode]) == [queryCode == 0];
      SingleEffect(Pacman, pkg, queryCode == 0, installCode);
      var _ := InstallPackages([pkg], [queryCode], [installCode]);
    }

    /** The detection half of `install_kernel_headers_for_all`: `pacman -Q` on each kernel
        in turn, keeping those whose query exits 0. Queries do not check their status, so
        nothing is recorded. */
    method DetectKernelTypes(kernelCodes: seq<int>) returns (kernelTypes: seq<string>)
      requires |kernelCodes| == |Kernels|
      modifies config
      ensures kernelTypes == DetectedKernels(kernelCodes)
      ensures config.View() == old(config.View())
    {
      ghost var found := QueryHits(kernelCodes);
      kernelTypes := [];
      var j := 0;
      while j < |Kernels|
        invariant 0 <= j <= |Kernels|
        invariant kernelTypes == Present(Kernels[..j], found[..j])
        invariant config.View() == old(config.View())
      {
        var query := RunCommand(["pacman", "-Q", Kernels[j]], false, kernelCodes[j], "");
        if query.returncode == 0 {
          kernelTypes := kernelTypes + [Kernels[j]];
        }
        assert Kernels[..j + 1][..j] == Kernels[..j];
        assert found[..j + 1][..j] == found[..j];
        j := j + 1;
      }
      assert Kernels[..j] == Kernels && found[..j] == found;
    }

    /** `_is_ssd`: runs `lsblk`; a failure is recorded by the command runner and the
        probe answers "not an SSD". */
    method ProbeSsd(env: CleanupAnswers) returns (ssd: bool)
      modifies config
      ensures ssd == IsSsd(env)
      ensures config.errors == old(config.errors) + ProbeErrors(env)
      ensures config.View() == old(config.View()).(errors := config.errors)
    {
      var r := RunCommand(LsblkCommand, true, env.lsblkCode, env.lsblkOut);
      if r.Raised? {
        ssd := false;
      } else {
        ssd := Contains(r.stdout, "0");
      }
    }

    /** `cleanup_and_optimize`: one step; fstrim on an SSD; the two `rm -rf`; the
        temporary directories are removed only when no error has been recorded; `sync`.
        A failure of any of the unguarded commands escapes (`completed` is false) after
        the command runner recorded it. */
    method CleanupAndOptimize(env: CleanupAnswers) returns (completed: bool, removedTempDirs: bool)
      requires Valid()
      modifies config
      ensures Valid()
      ensures removedTempDirs == CleanupGate(old(config.errors), env)
      ensures completed == (ReachesGate(env) && env.syncCode == 0)
      ensures config.currentStep == old(config.currentStep) + 1
      ensures config.errors == old(config.errors) + ProbeErrors(env) + AbortErrors(env)
      ensures config.View() == old(config.View()).(currentStep := config.currentStep, errors := config.errors)
    {
      var _, _ := Step("Performing final cleanup and optimizations");
      completed, removedTempDirs := false, false;
      var ssd := ProbeSsd(env);
      var cleaned := RunCleanCommands(env, ssd);
      if !cleaned {
        return;
      }
      removedTempDirs := config.errors == [];
      var r := RunCommand(SyncCommand, true, env.syncCode, "");
      completed := !r.Raised?;
    }

    /** The three unguarded commands of the cleanup step, up to the gate: fstrim when on
        an SSD, then the two `rm -rf`. The first failure is recorded and ends the step. */
    method RunCleanCommands(env: CleanupAnswers, ssd: bool) returns (cleaned: bool)
      requires ssd == IsSsd(env)
      modifies config
      ensures cleaned == ReachesGate(env)
      ensures config.errors == old(config.errors) + (if cleaned then [] else AbortErrors(env))
      ensures config.View() == old(config.View()).(errors := config.errors)
    {
      cleaned := false;
      if ssd {
        var r := RunCommand(FstrimCommand, true, env.fstrimCode, "");
        if r.Raised? {
          return;
        }
      }
      var r := RunCommand(CleanTmpCommand, true, env.cleanTmpCode, "");
      if r.Raised? {
        return;
      }
      r := RunCommand(CleanYayCommand, true, env.cleanYayCode, "");
      cleaned := !r.Raised?;
    }
  }
}

=== FILE: programs.dfy ===
/** Which programs `install_user_programs` installs and removes (install.py:779-834),
    for an install mode and a desktop environment. The package lists themselves are
    constants of the installer (install.py:305-332); the rules below hold whatever they
    contain. */
module Programs {
  import opened Installer
  import opened Rules

  /** The installer's package lists, one field per constant. */
  datatype Catalog = Catalog(
    pacmanDefault: seq<string>, essentialDefault: seq<string>,
    pacmanMinimal: seq<string>, essentialMinimal: seq<string>,
    kdeInstall: seq<string>, kdeRemove: seq<string>,
    gnomeInstall: seq<string>, gnomeRemove: seq<string>,
    cosmicInstall: seq<string>, cosmicRemove: seq<string>,
    yayDefault: seq<string>, yayMinimal: seq<string>,
    flatpakKde: seq<string>, flatpakGnome: seq<string>, flatpakCosmic: seq<string>,
    flatpakMinimalKde: seq<string>, flatpakMinimalGnome: seq<string>,
    flatpakMinimalCosmic: seq<string>, flatpakMinimalGeneric: seq<string>)

  /** The lists as install.py defines them. */
  const SourceCatalog: Catalog := Catalog(
    ["android-tools", "bat", "bleachbit", "btop", "bluez-utils", "cmatrix", "dmidecode", "dosfstools",
     "expac", "firefox", "fwupd", "gamemode", "gnome-disk-utility", "hwinfo", "inxi", "lib32-gamemode",
     "lib32-mangohud", "mangohud", "net-tools", "noto-fonts-extra", "ntfs-3g", "samba", "sl",
     "speedtest-cli", "sshfs", "ttf-hack-nerd", "ttf-liberation", "unrar", "wget", "xdg-desktop-portal-gtk"],
    ["discord", "filezilla", "gimp", "kdenlive", "libreoffice-fresh", "lutris", "obs-studio", "steam",
     "telegram-desktop", "timeshift", "vlc", "wine"],
    ["android-tools", "bat", "bleachbit", "btop", "bluez-utils", "cmatrix", "dmidecode", "dosfstools",
     "expac", "firefox", "fwupd", "gnome-disk-utility", "hwinfo", "inxi", "net-tools", "noto-fonts-extra",
     "ntfs-3g", "samba", "sl", "speedtest-cli", "sshfs", "ttf-hack-nerd", "ttf-liberation", "unrar", "wget",
     "xdg-desktop-portal-gtk"],
    ["libreoffice-fresh", "timeshift", "vlc"],
    ["gwenview", "kdeconnect", "kwalletmanager", "kvantum", "okular", "power-profiles-daemon",
     "python-pyqt5", "python-pyqt6", "qbittorrent", "spectacle"],
    ["htop"],
    ["celluloid", "dconf-editor", "gnome-tweaks", "gufw", "seahorse", "transmission-gtk"],
    ["epiphany", "gnome-contacts", "gnome-maps", "gnome-music", "gnome-tour", "htop", "snapshot", "totem"],
    ["power-profiles-daemon", "transmission-gtk"],
    ["htop"],
    ["brave-bin", "heroic-games-launcher-bin", "megasync-bin", "spotify", "stacer-bin", "stremio",
     "teamviewer", "via-bin"],
    ["brave-bin", "stacer-bin", "stremio", "teamviewer"],
    ["io.github.shiftey.Desktop", "it.mijorus.gearlever", "net.davidotek.pupgui2"],
    ["com.mattjakeman.ExtensionManager", "io.github.shiftey.Desktop", "it.mijorus.gearlever", "com.vysp3r.ProtonPlus"],
    ["io.github.shiftey.Desktop", "it.mijorus.gearlever", "com.vysp3r.ProtonPlus", "dev.edfloreshz.CosmicTweaks"],
    ["it.mijorus.gearlever"],
    ["com.mattjakeman.ExtensionManager", "it.mijorus.gearlever"],
    ["it.mijorus.gearlever", "dev.edfloreshz.CosmicTweaks"],
    ["it.mijorus.gearlever"])

  /** The four lists `install_user_programs` hands on: pacman packages, AUR packages,
      Flatpak applications, and packages removed with `pacman -Rns`. */
  datatype Selection = Selection(pacman: seq<string>, aur: seq<string>, flatpak: seq<string>, remove: seq<string>)

  /** The desktop-specific pacman extras, added in DEFAULT mode only. */
  function DesktopExtras(c: Catalog, de: Desktop): seq<string>
  {
    match de
    case KDE => c.kdeInstall
    case GNOME => c.gnomeInstall
    case COSMIC => c.cosmicInstall
    case GENERIC => []
  }

  /** The packages removed for a desktop, in either mode. */
  function DesktopRemovals(c: Catalog, de: Desktop): seq<string>
  {
    match de
    case KDE => c.kdeRemove
    case GNOME => c.gnomeRemove
    case COSMIC => c.cosmicRemove
    case GENERIC => []
  }

  /** The Flatpak applications for a mode and desktop. DEFAULT mode has no branch for an
      unrecognised desktop and installs none; MINIMAL mode has one. */
  function FlatpakList(c: Catalog, mode: InstallMode, de: Desktop): (r: seq<string>)
    ensures mode == DEFAULT && de == GENERIC ==> r == []
    ensures mode == MINIMAL && de == GENERIC ==> r == c.flatpakMinimalGeneric
  {
    match (mode, de)
    case (DEFAULT, KDE) => c.flatpakKde
    case (DEFAULT, GNOME) => c.flatpakGnome
    case (DEFAULT, COSMIC) => c.flatpakCosmic
    case (DEFAULT, GENERIC) => []
    case (MINIMAL, KDE) => c.flatpakMinimalKde
    case (MINIMAL, GNOME) => c.flatpakMinimalGnome
    case (MINIMAL, COSMIC) => c.flatpakMinimalCosmic
    case (MINIMAL, GENERIC) => c.flatpakMinimalGeneric
  }

  /** The selection made by `install_user_programs`. */
  function Select(c: Catalog, mode: InstallMode, de: Desktop): (r: Selection)
    ensures var base := if mode == DEFAULT then c.pacmanDefault + c.essentialDefault
                        else c.pacmanMinimal + c.essentialMinimal;
      |base| <= |r.pacman| && r.pacman[..|base|] == base &&
      (mode == MINIMAL || de == GENERIC ==> r.pacman == base)
    ensures r.remove == DesktopRemovals(c, de) && r.flatpak == FlatpakList(c, mode, de)
  {
    var pacman :=
      if mode == DEFAULT then c.pacmanDefault + c.essentialDefault + DesktopExtras(c, de)
      else c.pacmanMinimal + c.essentialMinimal;
    var aur := if mode == DEFAULT then c.yayDefault else c.yayMinimal;
    Selection(pacman, aur, FlatpakList(c, mode, de), DesktopRemovals(c, de))
  }

  /** The pacman list starts with the mode's base and essential lists, in that order; the
      AUR list is the mode's list; neither depends on anything else. */
  lemma PacmanListStartsWithBase(c: Catalog, mode: InstallMode, de: Desktop)
    ensures var s := Select(c, mode, de);
      var base := if mode == DEFAULT then c.pacmanDefault + c.essentialDefault
                  else c.pacmanMinimal + c.essentialMinimal;
      |base| <= |s.pacman| && s.pacman[..|base|] == base &&
      s.aur == (if mode == DEFAULT then c.yayDefault else c.yayMinimal)
  {
  }

  /** MINIMAL mode adds no desktop extras: every desktop gets the same pacman and AUR
      lists. In DEFAULT mode the extras follow the base lists, and GENERIC gets none. */
  lemma DesktopExtrasOnlyInDefault(c: Catalog, de: Desktop)
    ensures Select(c, MINIMAL, de).pacman == Select(c, MINIMAL, GENERIC).pacman
    ensures Select(c, MINIMAL, de).aur == Select(c, MINIMAL, GENERIC).aur
    ensures Select(c, DEFAULT, de).pacman == Select(c, DEFAULT, GENERIC).pacman + DesktopExtras(c, de)
  {
  }

  /** The removals depend on the desktop only, never on the mode, and an unrecognised
      desktop removes nothing. */
  lemma RemovalsIgnoreMode(c: Catalog, de: Desktop)
    ensures Select(c, DEFAULT, de).remove == Select(c, MINIMAL, de).remove
    ensures de == GENERIC ==> Select(c, DEFAULT, de).remove == []
  {
  }

  /** With the installer's own lists, every combination installs some Flatpak
      application except DEFAULT mode on an unrecognised desktop, which installs none. */
  lemma FlatpakEmptyOnlyForDefaultGeneric(mode: InstallMode, de: Desktop)
    ensures Select(SourceCatalog, mode, de).flatpak == [] <==> mode == DEFAULT && de == GENERIC
  {
  }

  /** With the installer's own lists, MINIMAL mode installs fewer pacman and AUR packages
      than DEFAULT mode on every desktop. */
  lemma MinimalIsSmaller(de: Desktop)
    ensures |Select(SourceCatalog, MINIMAL, de).pacman| < |Select(SourceCatalog, DEFAULT, de).pacman|
    ensures |Select(SourceCatalog, MINIMAL, de).aur| < |Select(SourceCatalog, DEFAULT, de).aur|
  {
  }
}

=== FILE: progress.dfy ===
/** The progress bar drawn before every step (install.py:420-426) and the step header
    (install.py:428-432). */
module Progress {
  import opened Text

  const Width := 40

  /** Python's `int(a / b)` for `b > 0`: the quotient truncated toward zero. Float
      rounding is not modelled; for the installer's operands the quotient is exact. */
  function TruncDiv(a: int, b: int): int
    requires b > 0
  {
    if a >= 0 then a / b else -((-a) / b)
  }

  /** Number of `#` cells once `current - 1` of `total` steps are done. */
  function Filled(current: int, total: int): int
    requires total > 0
  {
    TruncDiv(Width * (current - 1), total)
  }

  /** Number of blank cells; Python's `' ' * n` draws none when `n` is negative. */
  function Blank(current: int, total: int): int
    requires total > 0
  {
    Width - Filled(current, total)
  }

  /** The text between the brackets. */
  function BarCells(current: int, total: int): string
    requires total > 0
  {
    Repeat('#', Filled(current, total)) + Repeat(' ', Blank(current, total))
  }

  /** The line `show_progress` prints: `[####    ] k/total` with k = current - 1. */
  function ProgressLine(current: int, total: int): (r: string)
    requires total > 0
    ensures 1 <= current <= total + 1 ==>
      |r| > Width + 1 && r[0] == '[' && r[Width + 1] == ']' &&
      forall k :: 1 <= k <= Width ==> (r[k] == '#' <==> k <= Filled(current, total))
  {
    var line := "[" + BarCells(current, total) + "] " + IntToString(current - 1) + "/" + IntToString(total);
    if 1 <= current <= total + 1 then
      BarFitsWidth(current, total);
      BarCellsLayout(current, total);
      assert forall k :: 1 <= k <= Width ==> line[k] == BarCells(current, total)[k - 1];
      line
    else line
  }

  /** The header `step` prints before the bar: the step's index in brackets. */
  function StepHeader(current: int, description: string): (h: string)
    ensures |h| >= |description| + 5 && h[..2] == "\n["
    ensures h[|h| - |description| - 2..] == "] " + description
  {
    "\n[" + IntToString(current) + "] " + description
  }

  lemma DivBelow(a: int, b: int, q: int)
    requires b > 0 && 0 <= a < q * b
    ensures a / b < q
  {
  }

  lemma MulLe(x: int, y: int, b: int)
    requires x <= y && b >= 0
    ensures x * b <= y * b
  {
  }

  lemma DivMonotone(a: int, c: int, b: int)
    requires b > 0 && 0 <= a <= c
    ensures a / b <= c / b
  {
    var q := c / b;
    assert c < (q + 1) * b;
    DivBelow(a, b, q + 1);
  }

  lemma MulLtCancel(x: int, y: int, b: int)
    requires b > 0 && x * b < y * b
    ensures x < y
  {
  }

  lemma DivAbove(a: int, b: int, q: int)
    requires b > 0 && 0 <= q * b <= a
    ensures q <= a / b
  {
    var d := a / b;
    assert a == d * b + a % b;
    assert q * b < (d + 1) * b;
    MulLtCancel(q, d + 1, b);
  }

  /** The `#` count stays within the bar, and reaches its end exactly on the last step. */
  lemma {:induction false} FilledRange(current: int, total: int)
    requires total > 0 && 1 <= current <= total + 1
    ensures 0 <= Filled(current, total) <= Width
    ensures Filled(current, total) == Width <==> current == total + 1
  {
    var k := current - 1;
    var n := Width * k;
    assert 0 <= n;
    assert Filled(current, total) == n / total;
    if k < total {
      assert n < Width * total;
      DivBelow(n, total, Width);
    } else {
      assert n == Width * total;
      DivAbove(n, total, Width);
      assert n < (Width + 1) * total;
      DivBelow(n, total, Width + 1);
    }
  }

  /** While no more steps are done than announced, the bar holds between 0 and 40 `#`
      cells, the `#` and blank cells add up to exactly 40, and the bar is full exactly
      when every step is done. */
  lemma BarFitsWidth(current: int, total: int)
    requires total > 0 && 1 <= current <= total + 1
    ensures 0 <= Filled(current, total) <= Width
    ensures Filled(current, total) + Blank(current, total) == Width
    ensures |BarCells(current, total)| == Width
    ensures Filled(current, total) == Width <==> current == total + 1
  {
    FilledRange(current, total);
  }

  /** The bar never loses a `#` cell as steps advance. */
  lemma FilledMonotone(current: int, later: int, total: int)
    requires total > 0 && 1 <= current <= later
    ensures Filled(current, total) <= Filled(later, total)
  {
    MulLe(current - 1, later - 1, Width);
    DivMonotone(Width * (current - 1), Width * (later - 1), total);
  }

  /** The bar's cells are the `#` cells followed by the blank cells. */
  lemma BarCellsLayout(current: int, total: int)
    requires total > 0 && 1 <= current <= total + 1
    ensures var cells := BarCells(current, total);
      forall k :: 0 <= k < |cells| ==> (cells[k] == '#' <==> k < Filled(current, total))
  {
    BarFitsWidth(current, total);
    var cells := BarCells(current, total);
    var hashes := Repeat('#', Filled(current, total));
    forall k | 0 <= k < |cells| ensures cells[k] == '#' <==> k < Filled(current, total) {
      if k < |hashes| {
        assert cells[k] == hashes[k];
      } else {
        assert cells[k] == Repeat(' ', Blank(current, total))[k - |hashes|];
      }
    }
  }

  /** The index printed in the step header reads back as the step number, which is what
      a consumer of the `[N]` marker recovers. */
  lemma {:induction false} HeaderIndexReadsBack(current: nat, description: string)
    ensures var h := StepHeader(current, description);
      var digits := NatToString(current);
      h == "\n[" + digits + "] " + description && ParseNat(digits) == current
  {
    ParseNatToString(current);
  }
}

=== FILE: rules.dfy ===
/** The installer's pure decision rules: the desktop environment from
    `XDG_CURRENT_DESKTOP`, microcode from the CPU description, drivers from the GPU
    listing, the NVIDIA driver menu, the reboot prompt's answer, and the multilib check. */
module Rules {
  import opened Text

  datatype Option<T> = None | Some(value: T)

  // ---------------------------------------------------------------------
  // Desktop environment (install.py:722-731).

  datatype Desktop = KDE | GNOME | COSMIC | GENERIC

  /** The name `detect_desktop_environment` returns for each desktop. */
  function DesktopName(d: Desktop): string
  {
    match d
    case KDE => "KDE"
    case GNOME => "GNOME"
    case COSMIC => "COSMIC"
    case GENERIC => "GENERIC"
  }

  /** `detect_desktop_environment`: the first of KDE, GNOME, COSMIC whose name occurs in
      the variable's value (absent counts as ""); GENERIC when none does. */
  function DetectDesktop(xdg: string): (d: Desktop)
    ensures d != GENERIC ==> Contains(xdg, DesktopName(d))
    ensures d != KDE ==> !Contains(xdg, "KDE")
    ensures d == COSMIC || d == GENERIC ==> !Contains(xdg, "GNOME")
    ensures d == GENERIC ==> !Contains(xdg, "COSMIC")
  {
    if Contains(xdg, "KDE") then KDE
    else if Contains(xdg, "GNOME") then GNOME
    else if Contains(xdg, "COSMIC") then COSMIC
    else GENERIC
  }

  /** The detection answers GENERIC exactly when none of the three names occurs at any
      position of the value. */
  lemma GenericIffNoName(xdg: string)
    ensures DetectDesktop(xdg) == GENERIC <==>
      (forall i :: !OccursAt(xdg, "KDE", i)) &&
      (forall i :: !OccursAt(xdg, "GNOME", i)) &&
      (forall i :: !OccursAt(xdg, "COSMIC", i))
  {
    ContainsIffOccurs(xdg, "KDE");
    ContainsIffOccurs(xdg, "GNOME");
    ContainsIffOccurs(xdg, "COSMIC");
  }

  /** The name of a desktop, with anything before and after it, is recognised, as long
      as no higher-priority name occurs: KDE beats GNOME beats COSMIC. */
  lemma DetectNamed(pre: string, d: Desktop, post: string)
    requires d != GENERIC
    requires d != KDE ==> !Contains(pre + DesktopName(d) + post, "KDE")
    requires d == COSMIC ==> !Contains(pre + DesktopName(d) + post, "GNOME")
    ensures DetectDesktop(pre + DesktopName(d) + post) == d
  {
    ContainsInfix(pre, DesktopName(d), post);
  }

  /** A session of KDE layered on another desktop (`"KDE:GNOME"` and the like) is KDE. */
  lemma KdeWins(pre: string, post: string)
    ensures DetectDesktop(pre + "KDE" + post) == KDE
  {
    ContainsInfix(pre, "KDE", post);
  }

  /** Detecting a desktop's own name gives that desktop back. */
  lemma DetectRoundTrip(d: Desktop)
    ensures DetectDesktop(DesktopName(d)) == d
  {
    match d
    case KDE =>
      assert Contains("KDE", "KDE") by { assert "KDE"[..3] == "KDE"; }
    case GNOME => GnomeNotKde();
    case COSMIC => CosmicNotKdeOrGnome();
    case GENERIC => GenericNamesNone();
  }

  lemma GnomeNotKde()
    ensures DetectDesktop("GNOME") == GNOME
  {
    assert "GNOME"[..5] == "GNOME";
    LacksCharacter("GNOME", "KDE", 0);
  }

  lemma CosmicNotKdeOrGnome()
    ensures DetectDesktop("COSMIC") == COSMIC
  {
    assert "COSMIC"[..6] == "COSMIC";
    LacksCharacter("COSMIC", "KDE", 0);
    LacksCharacter("COSMIC", "GNOME", 0);
  }

  lemma GenericNamesNone()
    ensures DetectDesktop("GENERIC") == GENERIC
  {
    LacksCharacter("GENERIC", "KDE", 0);
    LacksCharacter("GENERIC", "GNOME", 2);
    LacksCharacter("GENERIC", "COSMIC", 1);
  }

  /** A text that lacks one of the characters of `sub` does not contain `sub`. */
  lemma LacksCharacter(s: string, sub: string, j: int)
    requires 0 <= j < |sub|
    requires forall k :: 0 <= k < |s| ==> s[k] != sub[j]
    ensures !Contains(s, sub)
  {
    forall i ensures !OccursAt(s, sub, i) {
      if 0 <= i && i + |sub| <= |s| {
        assert s[i..i + |sub|][j] == s[i + j];
      }
    }
    ContainsIffOccurs(s, sub);
  }

  // ---------------------------------------------------------------------
  // CPU microcode (install.py:478-491).

  /** The packages `install_cpu_microcode` installs, given the text of `/proc/cpuinfo`
      (None when it cannot be read): Intel is checked before AMD. */
  function Microcode(cpuInfo: Option<string>): (r: seq<string>)
    ensures |r| <= 1
    ensures r == ["intel-ucode"] <==> cpuInfo.Some? && Contains(cpuInfo.value, "Intel")
    ensures r == ["amd-ucode"] <==> cpuInfo.Some? && !Contains(cpuInfo.value, "Intel") && Contains(cpuInfo.value, "AMD")
    ensures r == [] <==> cpuInfo.None? || (!Contains(cpuInfo.value, "Intel") && !Contains(cpuInfo.value, "AMD"))
  {
    match cpuInfo
    case None => []
    case Some(info) =>
      if Contains(info, "Intel") then ["intel-ucode"]
      else if Contains(info, "AMD") then ["amd-ucode"]
      else []
  }

  /** An Intel vendor line (`GenuineIntel`) selects the Intel microcode, whatever else the
      description says. */
  lemma MicrocodeForIntel(pre: string, post: string)
    ensures Microcode(Some(pre + "GenuineIntel" + post)) == ["intel-ucode"]
  {
    var s := pre + "GenuineIntel" + post;
    ContainsInfix(pre, "GenuineIntel", post);
    assert "GenuineIntel" == "Genuine" + "Intel";
    ContainsSuffixOfPattern(s, "Genuine", "Intel");
  }

  /** An AMD vendor line (`AuthenticAMD`) selects the AMD microcode when the description
      does not also mention Intel. */
  lemma MicrocodeForAmd(pre: string, post: string)
    requires !Contains(pre + "AuthenticAMD" + post, "Intel")
    ensures Microcode(Some(pre + "AuthenticAMD" + post)) == ["amd-ucode"]
  {
    var s := pre + "AuthenticAMD" + post;
    ContainsInfix(pre, "AuthenticAMD", post);
    assert "AuthenticAMD" == "Authentic" + "AMD";
    ContainsSuffixOfPattern(s, "Authentic", "AMD");
  }

  /** At most one microcode package is chosen, and an unreadable description chooses none. */
  lemma MicrocodeAtMostOne(cpuInfo: Option<string>)
    ensures |Microcode(cpuInfo)| <= 1
    ensures cpuInfo.None? ==> Microcode(cpuInfo) == []
  {
  }

  // ---------------------------------------------------------------------
  // GPU drivers (install.py:856-874).

  datatype Gpu = Nvidia | Amd | Intel | Unsupported

  /** The vendor `detect_and_install_gpu_drivers` acts on, from the `lspci` output:
      NVIDIA, then AMD, then Intel. */
  function DetectGpu(lspci: string): (g: Gpu)
    ensures g == Nvidia <==> Contains(lspci, "NVIDIA")
    ensures g == Amd ==> Contains(lspci, "AMD")
    ensures g == Intel ==> Contains(lspci, "Intel") && !Contains(lspci, "AMD")
    ensures g == Unsupported ==> !Contains(lspci, "AMD") && !Contains(lspci, "Intel")
  {
    if Contains(lspci, "NVIDIA") then Nvidia
    else if Contains(lspci, "AMD") then Amd
    else if Contains(lspci, "Intel") then Intel
    else Unsupported
  }

  /** The driver packages installed directly for AMD and Intel graphics; NVIDIA goes
      through the driver menu instead and an unsupported GPU installs nothing. */
  function GpuPackages(g: Gpu): (r: seq<string>)
    ensures r == [] <==> g == Nvidia || g == Unsupported
    ensures "mesa" in r <==> g == Amd || g == Intel
    ensures "xf86-video-amdgpu" in r <==> g == Amd
    ensures "xf86-video-intel" in r <==> g == Intel
  {
    match g
    case Amd => ["xf86-video-amdgpu", "mesa"]
    case Intel => ["mesa", "xf86-video-intel"]
    case _ => []
  }

  /** A machine with NVIDIA and integrated graphics listed together is handled as NVIDIA:
      the menu is shown and no AMD or Intel drivers are installed directly. */
  lemma HybridGpuIsNvidia(pre: string, post: string)
    ensures DetectGpu(pre + "NVIDIA" + post) == Nvidia
    ensures GpuPackages(DetectGpu(pre + "NVIDIA" + post)) == []
  {
    ContainsInfix(pre, "NVIDIA", post);
  }

  /** Mesa is installed for both AMD and Intel graphics. */
  lemma MesaForAmdAndIntel(g: Gpu)
    ensures "mesa" in GpuPackages(g) <==> g == Amd || g == Intel
  {
  }

  /** An AMD GPU is recognised, whatever else is listed, unless NVIDIA is listed too:
      AMD outranks Intel. */
  lemma AmdBeforeIntel(pre: string, post: string)
    requires !Contains(pre + "AMD" + post, "NVIDIA")
    ensures DetectGpu(pre + "AMD" + post) == Amd
  {
    ContainsInfix(pre, "AMD", post);
  }

  /** No driver is chosen exactly when none of the three vendor names occurs at any
      position of the listing. */
  lemma UnsupportedIffNoVendor(lspci: string)
    ensures DetectGpu(lspci) == Unsupported <==>
      (forall i :: !OccursAt(lspci, "NVIDIA", i)) &&
      (forall i :: !OccursAt(lspci, "AMD", i)) &&
      (forall i :: !OccursAt(lspci, "Intel", i))
  {
    ContainsIffOccurs(lspci, "NVIDIA");
    ContainsIffOccurs(lspci, "AMD");
    ContainsIffOccurs(lspci, "Intel");
  }

  // ---------------------------------------------------------------------
  // NVIDIA driver menu (install.py:876-897).

  /** What a menu choice leads to: packages through `install_packages`, one `yay`
      command through the command runner, or nothing. */
  datatype NvidiaAction = InstallPacman(pkgs: seq<string>) | RunYay(command: seq<string>) | SkipDriver

  /** The default choice (anything unrecognised, including "4" and an empty answer). */
  const Nouveau: NvidiaAction := InstallPacman(["xf86-video-nouveau", "mesa"])

  /** `_handle_nvidia_installation`: the answer is stripped, then compared with the menu. */
  function NvidiaChoice(answer: string): (a: NvidiaAction)
    ensures a == SkipDriver <==> Strip(answer) == "5"
    ensures a.RunYay? <==> Strip(answer) == "2" || Strip(answer) == "3"
    ensures a.RunYay? ==> |a.command| == 7 && a.command[..4] == ["yay", "-S", "--noconfirm", "--needed"]
    ensures a.InstallPacman? ==> |a.pkgs| == 2
    ensures a.InstallPacman? && "nvidia-dkms" in a.pkgs <==> Strip(answer) == "1"
    ensures a == Nouveau <==> Strip(answer) !in {"1", "2", "3", "5"}
    ensures a.RunYay? ==> ("nvidia-390xx-dkms" in a.command <==> Strip(answer) == "2")
  {
    var choice := Strip(answer);
    if choice == "1" then InstallPacman(["nvidia-dkms", "nvidia-utils"])
    else if choice == "2" then
      RunYay(["yay", "-S", "--noconfirm", "--needed", "nvidia-390xx-dkms", "nvidia-390xx-utils", "lib32-nvidia-390xx-utils"])
    else if choice == "3" then
      RunYay(["yay", "-S", "--noconfirm", "--needed", "nvidia-340xx-dkms", "nvidia-340xx-utils", "lib32-nvidia-340xx-utils"])
    else if choice == "5" then SkipDriver
    else Nouveau
  }

  /** Whitespace around an answer never changes the choice, whatever the answer is. */
  lemma NvidiaChoiceIgnoresPadding(pre: string, w: string, post: string)
    requires forall k :: 0 <= k < |pre| ==> IsSpace(pre[k])
    requires forall k :: 0 <= k < |post| ==> IsSpace(post[k])
    ensures NvidiaChoice(pre + w + post) == NvidiaChoice(w)
  {
    StripIgnoresPadding(pre, w, post);
  }

  /** Every answer other than the four listed choices falls back to Nouveau, and the
      fallback is never a skip: some driver is always installed unless "5" is chosen. */
  lemma NvidiaDefaultIsNouveau(answer: string)
    ensures Strip(answer) !in {"1", "2", "3", "5"} ==> NvidiaChoice(answer) == Nouveau
    ensures NvidiaChoice(answer) == SkipDriver <==> Strip(answer) == "5"
  {
  }

  // ---------------------------------------------------------------------
  // Reboot prompt (install.py:989-1004).

  datatype RebootAnswer = Reboot | Decline | AskAgain

  /** One answer to "Reboot now? [Y/n]", stripped and lower-cased: empty, "y" or "yes"
      reboot; "n" or "no" decline; anything else asks again. */
  function ClassifyReboot(answer: string): (r: RebootAnswer)
    ensures Strip(answer) == [] ==> r == Reboot
    ensures r == Reboot ==> |Strip(answer)| <= 3 && (Strip(answer) == [] || LowerChar(Strip(answer)[0]) == 'y')
    ensures r == Decline ==> 1 <= |Strip(answer)| <= 2 && LowerChar(Strip(answer)[0]) == 'n'
    ensures r == Reboot ==>
      exists a, b :: 0 <= a <= b <= |answer| &&
        (forall k :: 0 <= k < a ==> IsSpace(answer[k])) &&
        (forall k :: b <= k < |answer| ==> IsSpace(answer[k])) &&
        Lower(answer[a..b]) in ["", "y", "yes"]
    ensures r == Decline ==>
      exists a, b :: 0 <= a <= b <= |answer| &&
        (forall k :: 0 <= k < a ==> IsSpace(answer[k])) &&
        (forall k :: b <= k < |answer| ==> IsSpace(answer[k])) &&
        Lower(answer[a..b]) in ["n", "no"]
  {
    StripShape(answer);
    var choice := Lower(Strip(answer));
    assert |choice| == |Strip(answer)| && (choice == [] || choice[0] == LowerChar(Strip(answer)[0]));
    if choice in ["", "y", "yes"] then Reboot
    else if choice in ["n", "no"] then Decline
    else AskAgain
  }

  /** How many answers the prompt reads before one is decisive: the index of the first
      answer that reboots or declines, or the number of answers when none does. */
  function FirstDecisive(answers: seq<string>): (k: nat)
    ensures k <= |answers|
    ensures forall j :: 0 <= j < k ==> ClassifyReboot(answers[j]) == AskAgain
    ensures k < |answers| ==> ClassifyReboot(answers[k]) != AskAgain
  {
    if |answers| == 0 then 0
    else if ClassifyReboot(answers[0]) != AskAgain then 0
    else 1 + FirstDecisive(answers[1..])
  }

  /** Pressing Enter, or only whitespace, takes the default: reboot. */
  lemma BlankAnswerReboots(answer: string)
    requires forall k :: 0 <= k < |answer| ==> IsSpace(answer[k])
    ensures ClassifyReboot(answer) == Reboot
  {
    StripAllSpace(answer);
    assert Lower([]) == [];
  }

  /** Any spelling of "y" or "yes" in upper or lower case, padded with any whitespace,
      reboots; any spelling of "n" or "no" likewise declines. */
  lemma RebootAnswersIgnoreCaseAndPadding(pre: string, w: string, post: string)
    requires forall k :: 0 <= k < |pre| ==> IsSpace(pre[k])
    requires forall k :: 0 <= k < |post| ==> IsSpace(post[k])
    ensures Lower(w) in ["y", "yes"] ==> ClassifyReboot(pre + w + post) == Reboot
    ensures Lower(w) in ["n", "no"] ==> ClassifyReboot(pre + w + post) == Decline
  {
    var l := Lower(w);
    if l in ["y", "yes", "n", "no"] {
      assert l[0] in "yn" && l[|l| - 1] in "yesno";
      SpaceLowersToItself(w[0]);
      SpaceLowersToItself(w[|w| - 1]);
      StripPadded(pre, w, post);
    }
  }

  /** Lower-casing leaves whitespace as it is, so a whitespace character never lowers to a
      letter. */
  lemma SpaceLowersToItself(c: char)
    ensures IsSpace(c) ==> LowerChar(c) == c && c !in "yesno"
  {
  }

  // ---------------------------------------------------------------------
  // Multilib (install.py:651-659).

  /** `_is_multilib_enabled`: the configuration (None when it cannot be read) names the
      `[multilib]` section and nowhere holds its commented-out form. */
  function MultilibEnabled(pacmanConf: Option<string>): (b: bool)
    ensures b ==> pacmanConf.Some? && Contains(pacmanConf.value, "[multilib]")
    ensures pacmanConf.Some? && Contains(pacmanConf.value, "#[multilib]") ==> !b
  {
    match pacmanConf
    case None => false
    case Some(content) => Contains(content, "[multilib]") && !Contains(content, "#[multilib]")
  }

  /** When the check says enabled, the section header occurs and no occurrence of it is
      preceded by `#`. */
  lemma MultilibEnabledMeansUncommented(content: string)
    requires MultilibEnabled(Some(content))
    ensures exists i :: OccursAt(content, "[multilib]", i)
    ensures forall i :: OccursAt(content, "[multilib]", i) && i > 0 ==> content[i - 1] != '#'
  {
    ContainsIffOccurs(content, "[multilib]");
    ContainsIffOccurs(content, "#[multilib]");
    forall i | OccursAt(content, "[multilib]", i) && i > 0
      ensures content[i - 1] != '#'
    {
      assert content[i - 1] == '#' ==> OccursAt(content, "#[multilib]", i - 1) by {
        if content[i - 1] == '#' {
          assert content[i - 1..i + 10] == "#" + content[i..i + 10];
        }
      }
      assert !OccursAt(content, "#[multilib]", i - 1);
    }
  }

  /** Conversely, a configuration in which the header occurs and no occurrence of it is
      preceded by `#` counts as enabled. */
  lemma UncommentedMeansMultilibEnabled(content: string, i: int)
    requires OccursAt(content, "[multilib]", i)
    requires forall j :: OccursAt(content, "[multilib]", j) && j > 0 ==> content[j - 1] != '#'
    ensures MultilibEnabled(Some(content))
  {
    ContainsIffOccurs(content, "[multilib]");
    ContainsIffOccurs(content, "#[multilib]");
    forall j ensures OccursAt(content, "#[multilib]", j) ==> OccursAt(content, "[multilib]", j + 1) && content[j] == '#' {
      if OccursAt(content, "#[multilib]", j) {
        assert content[j + 1..j + 11] == content[j..j + 11][1..];
      }
    }
  }

  /** A commented-out header anywhere makes the check say "not enabled", even when an
      enabled header occurs elsewhere in the same file. */
  lemma CommentedHeaderDisables(pre: string, post: string)
    ensures !MultilibEnabled(Some(pre + "#[multilib]" + post))
  {
    ContainsInfix(pre, "#[multilib]", post);
  }
}

=== FILE: setup.dfy ===
/** The part of the file system `setup_directories` touches (install.py:370-391): it
    creates the `configs` and `scripts` directories and writes each embedded file only
    when no file of that name exists yet; scripts it writes are made executable. */
module Setup {

  /** Where a file named `name` in directory `dir` lives. */
  function PathOf(dir: string, name: string): string
  {
    dir + "/" + name
  }

  /** The files after writing `entries` (name, content) into `dir` in order, skipping
      every path that already exists at the moment it is reached. */
  function AddMissing(files: map<string, string>, dir: string, entries: seq<(string, string)>): map<string, string>
    decreases |entries|
  {
    if |entries| == 0 then files
    else
      var n := |entries| - 1;
      var before := AddMissing(files, dir, entries[..n]);
      var path := PathOf(dir, entries[n].0);
      if path in before then before else before[path := entries[n].1]
  }

  /** The paths written by that loop, in the order they were written. */
  function NewPaths(files: map<string, string>, dir: string, entries: seq<(string, string)>): seq<string>
    decreases |entries|
  {
    if |entries| == 0 then []
    else
      var n := |entries| - 1;
      var path := PathOf(dir, entries[n].0);
      NewPaths(files, dir, entries[..n]) + (if path in AddMissing(files, dir, entries[..n]) then [] else [path])
  }

  function Elements(s: seq<string>): set<string>
  {
    set x | x in s
  }

  predicate DistinctNames(entries: seq<(string, string)>)
  {
    forall i, j :: 0 <= i < j < |entries| ==> entries[i].0 != entries[j].0
  }

  class FileTree {
    var dirs: set<string>
    var files: map<string, string>
    var executable: set<string>

    constructor (dirs: set<string>, files: map<string, string>, executable: set<string>)
      ensures this.dirs == dirs && this.files == files && this.executable == executable
    {
      this.dirs := dirs;
      this.files := files;
      this.executable := executable;
    }

    /** `mkdir(exist_ok=True)`: the directory exists afterwards, whether or not it did. */
    method MakeDir(path: string)
      modifies this
      ensures dirs == old(dirs) + {path}
      ensures files == old(files) && executable == old(executable)
    {
      dirs := dirs + {path};
    }

    /** The write-if-absent loop of `setup_directories`: each entry whose path does not
        exist is written, and made executable when `makeExecutable` is set. Returns the
        paths written. */
    method WriteMissing(dir: string, entries: seq<(string, string)>, makeExecutable: bool) returns (written: seq<string>)
      modifies this
      ensures files == AddMissing(old(files), dir, entries)
      ensures written == NewPaths(old(files), dir, entries)
      ensures executable == old(executable) + (if makeExecutable then Elements(written) else {})
      ensures dirs == old(dirs)
    {
      written := [];
      var i := 0;
      while i < |entries|
        invariant 0 <= i <= |entries|
        invariant files == AddMissing(old(files), dir, entries[..i])
        invariant written == NewPaths(old(files), dir, entries[..i])
        invariant executable == old(executable) + (if makeExecutable then Elements(written) else {})
        invariant dirs == old(dirs)
      {
        var path := PathOf(dir, entries[i].0);
        assert entries[..i + 1][..i] == entries[..i];
        if path !in files {
          files := files[path := entries[i].1];
          written := written + [path];
          if makeExecutable {
            executable := executable + {path};
          }
        }
        i := i + 1;
      }
      assert entries[..i] == entries;
    }
  }

  /** Files that existed before are never overwritten. */
  lemma {:induction false} ExistingFilesKept(files: map<string, string>, dir: string, entries: seq<(string, string)>)
    ensures forall p :: p in files ==> p in AddMissing(files, dir, entries) && AddMissing(files, dir, entries)[p] == files[p]
    decreases |entries|
  {
    if |entries| > 0 {
      ExistingFilesKept(files, dir, entries[..|entries| - 1]);
    }
  }

  /** Afterwards exactly the old files and the entries' paths exist. */
  lemma {:induction false} PathsAfterWriting(files: map<string, string>, dir: string, entries: seq<(string, string)>)
    ensures AddMissing(files, dir, entries).Keys
         == files.Keys + set i | 0 <= i < |entries| :: PathOf(dir, entries[i].0)
    decreases |entries|
  {
    if |entries| > 0 {
      var n := |entries| - 1;
      PathsAfterWriting(files, dir, entries[..n]);
      var lhs := set i | 0 <= i < |entries| :: PathOf(dir, entries[i].0);
      var rhs := (set i | 0 <= i < n :: PathOf(dir, entries[..n][i].0)) + {PathOf(dir, entries[n].0)};
      forall p | p in lhs ensures p in rhs {
        var i :| 0 <= i < |entries| && p == PathOf(dir, entries[i].0);
        if i < n {
          assert entries[..n][i] == entries[i];
        }
      }
      forall p | p in rhs ensures p in lhs {
        if p != PathOf(dir, entries[n].0) {
          var i :| 0 <= i < n && p == PathOf(dir, entries[..n][i].0);
          assert entries[..n][i] == entries[i];
        }
      }
      assert lhs == rhs;
    }
  }

  /** The file name can be read back from its path, so different names give different
      paths. */
  lemma PathInjective(dir: string, a: string, b: string)
    requires PathOf(dir, a) == PathOf(dir, b)
    ensures a == b
  {
    var k := |dir| + 1;
    assert PathOf(dir, a)[k..] == a;
    assert PathOf(dir, b)[k..] == b;
  }

  /** With distinct names (the embedded files are dictionaries), a file that was missing
      ends up with its entry's content. */
  lemma {:induction false} MissingFilesWritten(files: map<string, string>, dir: string, entries: seq<(string, string)>, i: int)
    requires DistinctNames(entries)
    requires 0 <= i < |entries| && PathOf(dir, entries[i].0) !in files
    ensures PathOf(dir, entries[i].0) in AddMissing(files, dir, entries)
    ensures AddMissing(files, dir, entries)[PathOf(dir, entries[i].0)] == entries[i].1
    decreases |entries|
  {
    var n := |entries| - 1;
    var path := PathOf(dir, entries[i].0);
    var prefix := entries[..n];
    if i < n {
      assert DistinctNames(prefix) by {
        forall a, b | 0 <= a < b < |prefix| ensures prefix[a].0 != prefix[b].0 {
          assert prefix[a] == entries[a] && prefix[b] == entries[b];
        }
      }
      assert prefix[i] == entries[i];
      MissingFilesWritten(files, dir, prefix, i);
      if PathOf(dir, entries[n].0) == path {
        PathInjective(dir, entries[n].0, entries[i].0);
      }
    } else {
      NotYetWritten(files, dir, prefix, entries[n].0);
    }
  }

  /** A path whose name occurs in none of the entries is not created by them. */
  lemma {:induction false} NotYetWritten(files: map<string, string>, dir: string, entries: seq<(string, string)>, name: string)
    requires forall j :: 0 <= j < |entries| ==> entries[j].0 != name
    requires PathOf(dir, name) !in files
    ensures PathOf(dir, name) !in AddMissing(files, dir, entries)
    decreases |entries|
  {
    if |entries| > 0 {
      var n := |entries| - 1;
      NotYetWritten(files, dir, entries[..n], name);
      if PathOf(dir, entries[n].0) == PathOf(dir, name) {
        PathInjective(dir, entries[n].0, name);
      }
    }
  }

  /** Running the loop again on its own result writes nothing and changes nothing. */
  lemma {:induction false} SecondRunWritesNothing(files: map<string, string>, dir: string, entries: seq<(string, string)>)
    ensures AddMissing(AddMissing(files, dir, entries), dir, entries) == AddMissing(files, dir, entries)
    ensures NewPaths(AddMissing(files, dir, entries), dir, entries) == []
  {
    var after := AddMissing(files, dir, entries);
    PathsAfterWriting(files, dir, entries);
    AlreadyPresent(after, dir, entries);
  }

  /** When every entry's path already exists, the loop is a no-op. */
  lemma {:induction false} AlreadyPresent(files: map<string, string>, dir: string, entries: seq<(string, string)>)
    requires forall i :: 0 <= i < |entries| ==> PathOf(dir, entries[i].0) in files
    ensures AddMissing(files, dir, entries) == files
    ensures NewPaths(files, dir, entries) == []
    decreases |entries|
  {
    if |entries| > 0 {
      var n := |entries| - 1;
      assert forall i :: 0 <= i < n ==> entries[..n][i] == entries[i];
      AlreadyPresent(files, dir, entries[..n]);
    }
  }

  /** `setup_directories` run a second time, on what the first run left, writes no config
      and no script and leaves every file as it was. */
  lemma {:induction false} SetupTwiceWritesNothing(files: map<string, string>, configsDir: string,
                                                   configs: seq<(string, string)>, scriptsDir: string,
                                                   scripts: seq<(string, string)>)
    ensures var first := AddMissing(AddMissing(files, configsDir, configs), scriptsDir, scripts);
      var again := AddMissing(first, configsDir, configs);
      NewPaths(first, configsDir, configs) == [] && again == first &&
      NewPaths(again, scriptsDir, scripts) == [] && AddMissing(again, scriptsDir, scripts) == first
  {
    var mid := AddMissing(files, configsDir, configs);
    var first := AddMissing(mid, scriptsDir, scripts);
    PathsAfterWriting(files, configsDir, configs);
    PathsAfterWriting(mid, scriptsDir, scripts);
    assert forall i :: 0 <= i < |configs| ==> PathOf(configsDir, configs[i].0) in first;
    AlreadyPresent(first, configsDir, configs);
    AlreadyPresent(first, scriptsDir, scripts);
  }
}

=== FILE: text.dfy ===
/** String helpers with Python's meaning: `sub in s`, `sep.join(words)`,
    `str(n)`, `c * n`, `s.strip()` and `s.lower()` (ASCII only). */
module Text {

  /** Python's `sub in s` on strings: `sub` occurs in `s` as a contiguous run. */
  predicate Contains(s: string, sub: string)
    decreases |s|
  {
    if |s| < |sub| then false
    else s[..|sub|] == sub || Contains(s[1..], sub)
  }

  /** The same relation by positions: some offset of `s` starts a copy of `sub`. */
  ghost predicate OccursAt(s: string, sub: string, i: int)
  {
    0 <= i && i + |sub| <= |s| && s[i..i + |sub|] == sub
  }

  lemma {:induction false} ContainsIffOccurs(s: string, sub: string)
    ensures Contains(s, sub) <==> exists i :: OccursAt(s, sub, i)
    decreases |s|
  {
    if |s| < |sub| {
    } else if s[..|sub|] == sub {
      assert OccursAt(s, sub, 0);
    } else {
      ContainsIffOccurs(s[1..], sub);
      if Contains(s[1..], sub) {
        var i :| OccursAt(s[1..], sub, i);
        assert s[1..][i..i + |sub|] == s[i + 1..i + 1 + |sub|];
        assert OccursAt(s, sub, i + 1);
      }
      if exists i :: OccursAt(s, sub, i) {
        var i :| OccursAt(s, sub, i);
        assert i != 0;
        assert s[1..][i - 1..i - 1 + |sub|] == s[i..i + |sub|];
        assert OccursAt(s[1..], sub, i - 1);
      }
    }
  }

  /** If `s` contains `a + b` it contains `b`: the tail of an occurrence is an occurrence. */
  lemma ContainsSuffixOfPattern(s: string, a: string, b: string)
    requires Contains(s, a + b)
    ensures Contains(s, b)
  {
    ContainsIffOccurs(s, a + b);
    var i :| OccursAt(s, a + b, i);
    assert s[i + |a|..i + |a| + |b|] == (a + b)[|a|..];
    assert OccursAt(s, b, i + |a|);
    ContainsIffOccurs(s, b);
  }

  /** Python's `sep.join(words)`. */
  function Join(words: seq<string>, sep: string): string
  {
    if |words| == 0 then ""
    else if |words| == 1 then words[0]
    else words[0] + sep + Join(words[1..], sep)
  }

  function DigitChar(d: nat): char
    requires d < 10
  {
    "0123456789"[d]
  }

  predicate IsDigit(c: char)
  {
    '0' <= c <= '9'
  }

  function DigitValue(c: char): nat
    requires IsDigit(c)
  {
    (c as int) - ('0' as int)
  }

  /** Python's `str(n)` for a natural number: decimal digits, no leading zeros. */
  function NatToString(n: nat): (s: string)
    ensures |s| >= 1 && forall k :: 0 <= k < |s| ==> IsDigit(s[k])
    decreases n
  {
    if n < 10 then [DigitChar(n)] else NatToString(n / 10) + [DigitChar(n % 10)]
  }

  /** Python's `str(i)` for any integer. */
  function IntToString(i: int): string
  {
    if i < 0 then "-" + NatToString(-i) else NatToString(i)
  }

  /** Reads a run of decimal digits back as a number (the reader of `NatToString`). */
  function ParseNat(s: string): nat
    requires forall k :: 0 <= k < |s| ==> IsDigit(s[k])
    decreases |s|
  {
    if |s| == 0 then 0 else 10 * ParseNat(s[..|s| - 1]) + DigitValue(s[|s| - 1])
  }

  lemma {:induction false} ParseNatToString(n: nat)
    ensures ParseNat(NatToString(n)) == n
    decreases n
  {
    var s := NatToString(n);
    if n < 10 {
      assert DigitValue(DigitChar(n)) == n;
    } else {
      ParseNatToString(n / 10);
      assert s[..|s| - 1] == NatToString(n / 10);
      assert DigitValue(DigitChar(n % 10)) == n % 10;
    }
  }

  /** Python's `c * n` on a one-character string: empty when `n` is zero or negative. */
  function Repeat(c: char, n: int): (r: string)
    ensures |r| == if n <= 0 then 0 else n
    ensures forall k :: 0 <= k < |r| ==> r[k] == c
    decreases if n <= 0 then 0 else n
  {
    if n <= 0 then "" else Repeat(c, n - 1) + [c]
  }

  /** The ASCII characters Python's `str.isspace` accepts. */
  predicate IsSpace(c: char)
  {
    var k := c as int;
    k == 32 || 9 <= k <= 13 || 28 <= k <= 31
  }

  function TrimStart(s: string): (r: string)
    ensures |r| <= |s|
    decreases |s|
  {
    if |s| > 0 && IsSpace(s[0]) then TrimStart(s[1..]) else s
  }

  function TrimEnd(s: string): (r: string)
    ensures |r| <= |s|
    decreases |s|
  {
    if |s| > 0 && IsSpace(s[|s| - 1]) then TrimEnd(s[..|s| - 1]) else s
  }

  /** Python's `s.strip()` with no argument, for ASCII whitespace. */
  function Strip(s: string): string
  {
    TrimEnd(TrimStart(s))
  }

  lemma {:induction false} TrimStartShape(s: string)
    ensures var r := TrimStart(s);
      r == s[|s| - |r|..] && (|r| == 0 || !IsSpace(r[0])) &&
      forall k :: 0 <= k < |s| - |r| ==> IsSpace(s[k])
    decreases |s|
  {
    if |s| > 0 && IsSpace(s[0]) {
      TrimStartShape(s[1..]);
      var r := TrimStart(s[1..]);
      assert s[1..][|s| - 1 - |r|..] == s[|s| - |r|..];
      forall k | 1 <= k < |s| - |r| ensures IsSpace(s[k]) {
        assert s[k] == s[1..][k - 1];
      }
    }
  }

  lemma {:induction false} TrimEndShape(s: string)
    ensures var r := TrimEnd(s);
      r == s[..|r|] && (|r| == 0 || !IsSpace(r[|r| - 1])) &&
      forall k :: |r| <= k < |s| ==> IsSpace(s[k])
    decreases |s|
  {
    if |s| > 0 && IsSpace(s[|s| - 1]) {
      TrimEndShape(s[..|s| - 1]);
      var r := TrimEnd(s[..|s| - 1]);
      assert s[..|s| - 1][..|r|] == s[..|r|];
      forall k | |r| <= k < |s| - 1 ensures IsSpace(s[k]) {
        assert s[k] == s[..|s| - 1][k];
      }
    }
  }

  /** `strip()` keeps one contiguous run `s[a..b]` of its input: everything before `a`
      and from `b` on is whitespace, and the run neither starts nor ends with whitespace. */
  lemma StripShape(s: string)
    ensures var r := Strip(s);
      var a := |s| - |TrimStart(s)|;
      var b := a + |r|;
      0 <= a <= b <= |s| && r == s[a..b] &&
      (forall k :: 0 <= k < a ==> IsSpace(s[k])) &&
      (forall k :: b <= k < |s| ==> IsSpace(s[k])) &&
      (|r| == 0 || (!IsSpace(r[0]) && !IsSpace(r[|r| - 1])))
  {
    TrimStartShape(s);
    var t := TrimStart(s);
    var a := |s| - |t|;
    TrimEndShape(t);
    var r := TrimEnd(t);
    var b := a + |r|;
    assert t == s[a..];
    assert r == t[..|r|];
    assert r == s[a..b];
    forall k | b <= k < |s| ensures IsSpace(s[k]) {
      assert s[k] == t[k - a];
    }
    if |r| > 0 {
      assert r[0] == t[0];
    }
  }

  /** Leading whitespace is dropped up to the first non-space character. */
  lemma {:induction false} TrimStartSkips(pre: string, rest: string)
    requires forall k :: 0 <= k < |pre| ==> IsSpace(pre[k])
    requires |rest| == 0 || !IsSpace(rest[0])
    ensures TrimStart(pre + rest) == rest
    decreases |pre|
  {
    if |pre| == 0 {
      assert pre + rest == rest;
    } else {
      assert (pre + rest)[0] == pre[0];
      assert (pre + rest)[1..] == pre[1..] + rest;
      TrimStartSkips(pre[1..], rest);
    }
  }

  /** Trailing whitespace is dropped back to the last non-space character. */
  lemma {:induction false} TrimEndSkips(rest: string, post: string)
    requires forall k :: 0 <= k < |post| ==> IsSpace(post[k])
    requires |rest| == 0 || !IsSpace(rest[|rest| - 1])
    ensures TrimEnd(rest + post) == rest
    decreases |post|
  {
    if |post| == 0 {
      assert rest + post == rest;
    } else {
      var s := rest + post;
      assert s[|s| - 1] == post[|post| - 1];
      assert s[..|s| - 1] == rest + post[..|post| - 1];
      TrimEndSkips(rest, post[..|post| - 1]);
    }
  }

  /** `strip()` gives back a word padded on either side by any whitespace. */
  lemma StripPadded(pre: string, core: string, post: string)
    requires forall k :: 0 <= k < |pre| ==> IsSpace(pre[k])
    requires forall k :: 0 <= k < |post| ==> IsSpace(post[k])
    requires |core| > 0 && !IsSpace(core[0]) && !IsSpace(core[|core| - 1])
    ensures Strip(pre + core + post) == core
  {
    assert pre + core + post == pre + (core + post);
    TrimStartSkips(pre, core + post);
    TrimEndSkips(core, post);
  }

  /** A text of whitespace only strips to nothing. */
  lemma StripAllSpace(s: string)
    requires forall k :: 0 <= k < |s| ==> IsSpace(s[k])
    ensures Strip(s) == []
  {
    TrimStartSkips(s, []);
    assert s + [] == s;
  }

  /** Whitespace added on either side of any text never changes what `strip()` keeps. */
  lemma StripIgnoresPadding(pre: string, w: string, post: string)
    requires forall k :: 0 <= k < |pre| ==> IsSpace(pre[k])
    requires forall k :: 0 <= k < |post| ==> IsSpace(post[k])
    ensures Strip(pre + w + post) == Strip(w)
  {
    StripShape(w);
    var r := Strip(w);
    var a := |w| - |TrimStart(w)|;
    var b := a + |r|;
    var s := pre + w + post;
    if |r| > 0 {
      var left := pre + w[..a];
      var right := w[b..] + post;
      assert w == w[..a] + r + w[b..];
      assert s == left + r + right;
      forall k | 0 <= k < |left| ensures IsSpace(left[k]) {
        if k >= |pre| {
          assert left[k] == w[k - |pre|];
        }
      }
      forall k | 0 <= k < |right| ensures IsSpace(right[k]) {
        if k < |w| - b {
          assert right[k] == w[b + k];
        } else {
          assert right[k] == post[k - (|w| - b)];
        }
      }
      StripPadded(left, r, right);
    } else {
      forall k | 0 <= k < |s| ensures IsSpace(s[k]) {
        if |pre| <= k < |pre| + |w| {
          assert s[k] == w[k - |pre|];
        } else if k >= |pre| + |w| {
          assert s[k] == post[k - |pre| - |w|];
        }
      }
      StripAllSpace(s);
    }
  }

  /** A run of `sub` between any prefix and suffix is found by `in`. */
  lemma ContainsInfix(pre: string, sub: string, post: string)
    ensures Contains(pre + sub + post, sub)
  {
    var s := pre + sub + post;
    assert s[|pre|..|pre| + |sub|] == sub;
    assert OccursAt(s, sub, |pre|);
    ContainsIffOccurs(s, sub);
  }

  function LowerChar(c: char): char
  {
    if 'A' <= c <= 'Z' then (c as int + 32) as char else c
  }

  /** Python's `s.lower()` for ASCII letters. */
  function Lower(s: string): (r: string)
  {
    seq(|s|, k requires 0 <= k < |s| => LowerChar(s[k]))
  }
}
